=== FILE: README.md ===
# pynetgene engine core in Dafny

This project models the core of the pynetgene genetic-algorithm library and proves properties about it. The core has two parts:

- **Chromosome data model** (`pynetgene/chromosome.py`). There are four chromosome classes: bit, integer, float and permutation. The model covers:
  - their validating `add_gene`, `set_gene` and `insert_gene`;
  - the unchecked base accessors (`get_gene`, `c[i]`, `c[i] = v`, `contains`, `length`);
  - `copy` and `to_list`;
  - the randomised constructors;
  - `average`.
- **Evolution engine** (`netgene/ga.py`). The model covers:
  - `GeneticConfiguration` and its eager validation;
  - `get_algorithm`;
  - the `GeneticAlgorithm` constructor and its validating property setters;
  - the list of stop conditions and the disjunctive stop check;
  - one generational step: the limit, elitism, the reproduction stream, crossover-or-clone, mutation, evaluation, sorting and the generation counter;
  - the `evolve` loop.

Modules, in dependency order:

| file | module | contents |
|---|---|---|
| `wrappers.dfy` | `Wrappers` | `Option` and `Result`, where `Result` stands for Python exceptions |
| `pylist.dfy` | `PyList` | Python runtime values and `==` between them (`True == 1 == 1.0`), plus the index rules of `lst[i]`, `lst.insert(i, x)` and `lst[:k]` |
| `shuffle.dfy` | `Shuffling` | CPython's `random.shuffle` (Fisher–Yates), with the random indices passed in |
| `chromosome.dfy` | `Chromosomes` | chromosomes as values |
| `chromosome_store.dfy` | `ChromosomeStore` | chromosome and list objects, used to state the sharing behaviour of `copy` and `to_list` |
| `population.dfy` | `Populations` | fitness, individuals, a world of individual objects, sorting by descending fitness, the best individual |
| `configuration.dfy` | `Configuration` | `GeneticConfiguration(...)` |
| `engine.dfy` | `Engine` | the `GeneticAlgorithm` state, the setters and the stop check |
| `evolution.dfy` | `Evolution` | `_evolve_generation` and `evolve` |

How the Python program's effects are represented:

- **Randomness.** Every `random.*` call becomes a draw function passed as a parameter. This covers `random.choice`, `randint`, `uniform`, `gauss`, `shuffle` and `random()`.
- **Operators and callbacks.** The selection, crossover and mutation operators and the fitness callback become fields of the `Evolution.Oracles` value. Their implementations live in `netgene/operators` and `netgene/core.py`, which are not part of this model.
- **Objects.** Individuals are objects that the engine changes in place, and one object can appear twice in a population. So populations are sequences of references into a `World`.

The model follows the code as written, including these behaviours:

- The `crossover_rate` setter accepts a value in `[0, 1]` but stores it as the mutation rate (ga.py line 68).
- A permutation chromosome's `set_gene` refuses any allele already present. That includes the allele currently in the target slot, so rewriting a slot with its own value fails.
- A bit chromosome's `insert_gene` wants a `BitGene` object, while its `add_gene` and `set_gene` want a `bool` or `None`.
- `GeneticAlgorithm(...)` makes no range checks on its rates or its elitism size. It raises a `ValueError` for a `None` target fitness, and its thread pool raises one for fewer than one thread.
- The elitism size is never checked against the population size. `GeneticConfiguration(...)` and the `elitism_size` setter refuse a negative size, but `GeneticAlgorithm(...)` stores any size unchecked (ga.py line 31). With `skip_crossover` and elitism on, a negative elitism size `e` makes `limit` larger than the population size `n`. The stream is then the whole population and the elites its first `n + e` members, so the next population has `2n + e` members for `-n < e < 0`, and `n` members from `e = -n` down. With elitism on and an elitism size `e` above the population size `n`, `limit` becomes negative and the elites are the whole population. With `skip_crossover`, `population[:limit]` then counts from the end: the stream is the first `2n - e` members while `e < 2n`, and empty from `e = 2n` on. The next population thus has `3n - e` members, more than `n`, for `n < e < 2n`, and exactly `n` members for `e >= 2n`.
- With `skip_crossover` and elitism, the stream starts with the elite objects themselves whenever elites and stream are both non-empty, that is for `-n < e < 0`, for `0 < e < n` and for `n < e < 2n`. Mutating the stream then mutates the first elite, and it appears twice in the next population.
- The population size is kept exactly with `skip_crossover` and an elitism size within the population. With crossover, the stream reaches exactly `limit` when every selection succeeds and every crossover yields a child, and it is empty when every selection fails. Between these two cases only the upper bound `limit` is stated.

## Model

| member | source | states |
|---|---|---|
| PyList.ResolveIndex | pynetgene/chromosome.py:22-23 | a list index is valid exactly in `-len .. len-1`; a negative index counts from the end |
| PyList.BoundIndex | pynetgene/chromosome.py:97 | `list.insert(i, x)` never raises and places `x` at `i` clamped into `0 .. len`, with negative indices counted from the end; `s[:i]` keeps that many elements, so with `-len <= i < 0` it drops the last `-i` |
| PyList.InsertAt | pynetgene/chromosome.py:97 | `insert` grows the list by one; the value is at the insert position, earlier elements keep their places and later ones shift up by one |
| Shuffling.Shuffle | pynetgene/chromosome.py:220 | shuffling keeps the length and the multiset of elements, whatever the random draws |
| Shuffling.ShufflePreservesDistinct | pynetgene/chromosome.py:223 | shuffling never makes two slots equal |
| Chromosomes.GetGene | pynetgene/chromosome.py:22-23 | `get_gene` succeeds exactly for indices in `-len .. len-1` and returns that slot; otherwise it raises `IndexError` |
| Chromosomes.Length | pynetgene/chromosome.py:25-26 | `length()` is the number of alleles: `get_gene` answers every index in `-length .. length-1` and raises `IndexError` just past either end |
| Chromosomes.Contains | pynetgene/chromosome.py:28-29 | `contains(v)` holds exactly when some index that `get_gene` answers holds an allele `==` to `v`, with `True == 1 == 1.0` |
| Chromosomes.SetItem | pynetgene/chromosome.py:57-58 | `c[i] = v` writes slot `i` with no validation and leaves every other slot, the class and the length as they were; it raises `IndexError` exactly for indices outside `-len .. len-1` |
| Chromosomes.ToList | pynetgene/chromosome.py:99-100 | `to_list` has the chromosome's length, and every position holds what `get_gene` returns for it |
| Chromosomes.AddGene | pynetgene/chromosome.py:84-243 | `add_gene` succeeds exactly when the value passes the class's type check and, for a permutation, is not already `in` the chromosome. It appends the value after the old alleles. The type error comes before the duplicate error. Bit accepts `None` and booleans; integer accepts `None` and every `int`, `bool` included; float accepts ints and floats but not `None`; permutation accepts ints. A successful call keeps a permutation chromosome free of equal alleles |
| Chromosomes.AddedGeneIsContained | pynetgene/chromosome.py:28-29 | after a successful `add_gene(v)`, `contains(v)` holds and `contains(u)` holds exactly when it held before or `v == u` |
| Chromosomes.SetGene | pynetgene/chromosome.py:89-234 | `set_gene` checks the type, then (permutation only) duplicates over the whole list, then the index, raising `IndexError` outside `-len .. len-1`. On success only the target slot changes, and a permutation chromosome stays free of equal alleles |
| Chromosomes.InsertGene | pynetgene/chromosome.py:94-252 | `insert_gene` applies the class's type check and the permutation duplicate check, and never raises `IndexError`; a bit chromosome accepts only a `BitGene`. It grows the chromosome by one, and for `0 <= index <= len` the result is `genes[..index] + [v] + genes[index..]`. A permutation chromosome stays free of equal alleles |
| Chromosomes.Copy | pynetgene/chromosome.py:102-106 | the copy has the same class and length and answers every `get_gene` exactly as the original does |
| Chromosomes.SetGeneRefusesCurrentValue | pynetgene/chromosome.py:230-233 | rewriting a permutation slot with its own int allele raises the duplicate error |
| Chromosomes.SetItemCanBreakPermutation | pynetgene/chromosome.py:57-58 | the unchecked `c[i] = v` can give a permutation chromosome two equal alleles |
| Chromosomes.BitChromosomeInsertWantsBitGene | pynetgene/chromosome.py:84-97 | a bit chromosome's `add_gene` takes a `bool` and refuses a `BitGene`, while its `insert_gene` does the opposite |
| Chromosomes.NewBitChromosome | pynetgene/chromosome.py:68-74 | a bit chromosome of `size` coin-flip booleans, or an empty one without a size |
| Chromosomes.RandInt | pynetgene/chromosome.py:119 | a `randint(lo, hi)` draw lies in `lo .. hi` |
| Chromosomes.RandIntReachesEveryValue | pynetgene/chromosome.py:119 | every value of `lo .. hi` is some draw's result |
| Chromosomes.NewIntegerChromosome | pynetgene/chromosome.py:115-123 | with size and both bounds, every allele lies within the bounds; with only a size, every allele is a 32-bit signed int; `ValueError` exactly when a positive size meets `min > max` |
| Chromosomes.Uniform | pynetgene/chromosome.py:169 | `uniform(a, b)` on a unit draw lies between `a` and `b`, in either order |
| Chromosomes.NewFloatChromosome | pynetgene/chromosome.py:165-173 | `size` float alleles, within `[min, max]` for unit draws when both bounds are given, else the normal draws |
| Chromosomes.IntRangeDistinct | pynetgene/chromosome.py:219 | `start .. start+n-1` holds no two equal alleles |
| Chromosomes.NewPermutationChromosome | pynetgene/chromosome.py:215-225 | a permutation chromosome of the shuffled range, or an empty one without a size |
| Chromosomes.NewPermutationChromosomeIsPermutation | pynetgene/chromosome.py:218-223 | both constructor branches hold exactly the values `start .. start+size-1`, each once, with no two alleles equal |
| Chromosomes.PermutationChromosomeAllelesInRange | pynetgene/chromosome.py:218-223 | every allele of a new permutation chromosome is one of `start .. start+size-1` |
| Chromosomes.PermutationChromosomeHasEveryValue | pynetgene/chromosome.py:218-223 | every value of `start .. start+size-1` occurs in a new permutation chromosome |
| Chromosomes.Average | pynetgene/chromosome.py:157-161 | `average` raises on an empty chromosome, succeeds exactly when the chromosome is non-empty and all-numeric, and the mean times the length is the sum |
| Chromosomes.SumBounds | pynetgene/chromosome.py:161 | the sum of `n` alleles lies between `n` times the smallest and `n` times the largest bound |
| Chromosomes.AverageWithinBounds | pynetgene/chromosome.py:207-211 | the mean of a non-empty numeric chromosome lies between any lower and upper bound of its alleles |
| ChromosomeStore.CopyObject | pynetgene/chromosome.py:102-106 | `copy()` gives a new chromosome object over a new list object with the same alleles, and leaves existing objects as they were |
| ChromosomeStore.CopyIsolatesOriginal | pynetgene/chromosome.py:105 | writing any genes into the copy leaves the original's genes unchanged |
| ChromosomeStore.CopyThenMutateLeavesOriginal | pynetgene/chromosome.py:254-258 | `set_gene`, `add_gene` and `insert_gene` on a copy never change the original |
| ChromosomeStore.ToListObject | pynetgene/chromosome.py:99-100 | `to_list()` returns the chromosome's own list object |
| ChromosomeStore.ToListAliasesChromosome | pynetgene/chromosome.py:99-100 | a write into the list from `to_list()` changes the chromosome itself |
| ChromosomeStore.AddGeneAt | pynetgene/chromosome.py:87 | `add_gene` on an object succeeds exactly when the value-level operation does, writes its result into the object's list, and leaves every chromosome over another list unchanged |
| ChromosomeStore.SetGeneAt | pynetgene/chromosome.py:92 | `set_gene` on an object succeeds exactly when the value-level operation does, writes its result into the object's list, and leaves every chromosome over another list unchanged |
| ChromosomeStore.InsertGeneAt | pynetgene/chromosome.py:97 | `insert_gene` on an object succeeds exactly when the value-level operation does, writes its result into the object's list, and leaves every chromosome over another list unchanged |
| Populations.Allocate | netgene/ga.py:176-178 | new offspring become new objects, pairwise distinct and distinct from all existing ones, and existing objects are untouched |
| Populations.UpdateEach | netgene/ga.py:187-188 | an in-place pass over a population changes no object outside it |
| Populations.UpdateEachOnce | netgene/ga.py:251-252 | without repeated members, every individual is updated exactly once |
| Populations.UpdateEachTwice | netgene/ga.py:187-188 | an object listed twice is updated twice |
| Populations.InsertByFitness | netgene/ga.py:156 | inserting into a population sorted by descending fitness keeps it sorted and adds exactly one member |
| Populations.SortByFitness | netgene/ga.py:156 | `sort()` orders by descending fitness and keeps the number of members |
| Populations.SortByFitnessPermutes | netgene/ga.py:156 | `sort()` only reorders: every object is held as often as before |
| Populations.BestIndividual | netgene/ga.py:160 | the best individual is missing exactly for an empty population; in a sorted population it ranks at or above every member |
| Configuration.NewConfiguration | netgene/ga.py:266-307 | the configuration is built exactly when every check passes. Otherwise it raises the error of the first failing check in source order. Defaults fill missing operators, and the mutator takes the mutation rate |
| Configuration.DefaultsAccepted | netgene/ga.py:266-274 | the default arguments pass every check, and the default selector is `RandomSelector` |
| Engine.NewGeneticAlgorithm | netgene/ga.py:17-49 | no range checks on rates or elitism size. Of the checks modelled, it raises for a `None` target first, then for fewer than one thread, and otherwise builds the engine. Its mutator takes the mutation rate, and the generation and target conditions are registered in that order |
| Engine.GetAlgorithm | netgene/ga.py:465-470 | the engine carries the configuration's settings with the generation condition first, and is refused only for fewer than one thread |
| Engine.ConfiguredAlgorithmBuilds | netgene/ga.py:465-470 | every configuration that `GeneticConfiguration(...)` accepts yields an engine |
| Engine.SetMutationRate | netgene/ga.py:54-59 | accepted exactly in `[0, 1]`; the mutator's own rate is not touched |
| Engine.SetCrossoverRate | netgene/ga.py:65-70 | accepted exactly in `[0, 1]`; the value lands in the mutation rate and the crossover rate keeps its value |
| Engine.SetElitism | netgene/ga.py:76-82 | only `True` and `False` are accepted, `1` included among the refused; otherwise only the elitism flag changes |
| Engine.SetElitismSize | netgene/ga.py:88-93 | only a negative size is refused; nothing else changes |
| Engine.SetMutatorOperator | netgene/ga.py:107-112 | `None` is refused; otherwise only the mutator changes |
| Engine.SetCrossoverOperator | netgene/ga.py:118-123 | `None` is refused; otherwise only the crossover operator changes |
| Engine.AddCustomStopCondition | netgene/ga.py:260-261 | the predicate goes behind all existing conditions, which stay as they were |
| Engine.SettersPreserveWellFormed | netgene/ga.py:41-49 | no setter removes the generation condition from the front of the list |
| Engine.Fires | netgene/ga.py:46-47 | the generation condition holds exactly at `max_generation`. The target condition compares the first individual's fitness with the target, and raises on an empty population |
| Engine.AnyFires | netgene/ga.py:254-255 | `any(...)` over the conditions raises only when the target condition is among them and the population is empty |
| Engine.HasReachedStopCondition | netgene/ga.py:254-255 | the check is true whenever the generation equals the limit, false only when it differs from the limit, and raises only on an empty population. When true, the generation equals the limit or one of the later conditions holds |
| Engine.AnyFiresIsDisjunction | netgene/ga.py:254-255 | the check is true exactly when some condition holds and none before it raised, and false exactly when every condition is false |
| Engine.AppendedConditionIsMonotone | netgene/ga.py:260-261 | a further condition never turns a true check false or into an error; a false check becomes that condition's answer |
| Engine.CustomStopConditionIsMonotone | netgene/ga.py:254-261 | registering a custom predicate keeps a true check true and turns a false check into the predicate's verdict |
| Engine.AnyFiresReadsOnlyLimits | netgene/ga.py:46-47 | the conditions read only the engine's generation limit and target |
| Evolution.Limit | netgene/ga.py:139 | `limit` is negative exactly when elitism keeps more places than the population has, and never exceeds the population size for a non-negative elitism size |
| Evolution.Elites | netgene/ga.py:142-148 | the elites are a prefix of the population, none without elitism, the whole population for an oversized elitism size, and together with `limit` they fill the population when the elitism size lies within it |
| Evolution.Crossover | netgene/ga.py:211-237 | with `crossover_rate > random()` the offspring are `recombine`'s, or none when it raises. Otherwise they are unevaluated copies of the first parent and, unless the operator has a single offspring, of the second |
| Evolution.Breed | netgene/ga.py:165-180 | the stream grows from what is collected and never exceeds `limit`, or zero for a negative limit |
| Evolution.Stream | netgene/ga.py:162-183 | with `skip_crossover` the stream is `population[:limit]` itself. Otherwise it is the bred offspring as new, pairwise distinct objects, at most `limit` of them; existing objects are untouched |
| Evolution.Reproduce | netgene/ga.py:139-195 | the next population is the elites followed by the stream. Mutation changes no object outside the stream, changes nothing with `skip_mutation`, and otherwise mutates each stream object once, with its position, when none is repeated |
| Evolution.ReproduceWithCrossoverHasNoAliases | netgene/ga.py:142-180 | with crossover and a population without repeated objects, elites and new offspring never share an object |
| Evolution.Evaluate | netgene/ga.py:247-252 | the fitness pass changes no object outside the population and, without repeated objects, evaluates each member exactly once |
| Evolution.Advance | netgene/ga.py:136-158 | the state one step leaves: the new population lives in the new world, holds exactly the elites and the stream, and is one generation further |
| Evolution.AdvanceSorts | netgene/ga.py:156 | the population a step leaves is sorted by descending fitness |
| Evolution.AdvanceFrame | netgene/ga.py:150-158 | a step allocates nothing beyond reproduction and changes no object outside the new population |
| Evolution.AdvanceEvaluatesOnce | netgene/ga.py:152-156 | without repeated objects, every member a step leaves is the fitness function applied once to its reproduced state |
| Evolution.EvolveGeneration | netgene/ga.py:136-160 | a step fails exactly when the next population is empty. Otherwise it yields a sorted permutation of elites plus stream, with the generation counter one higher. Only members are changed, and without repeated objects every member is the fitness function applied once to its reproduced state |
| Evolution.NextPopulationSize | netgene/ga.py:139-148 | the elites are `population[:elitism_size]` and the stream has at most `limit` members. The next population is no larger than the current one while the elitism size lies within the population |
| Evolution.SkipCrossoverKeepsSize | netgene/ga.py:181-183 | with `skip_crossover` and an elitism size within the population, the stream is the first `limit` members and the size is kept exactly |
| Evolution.SkipCrossoverMutatesElites | netgene/ga.py:142-188 | with `skip_crossover`, elitism, mutation and an elitism size `e` with `-n < e < 0`, `0 < e < n` or `n < e < 2n`, the first elite is also the first stream member, so it is mutated and appears twice |
| Evolution.OversizedElitismGrowsPopulation | netgene/ga.py:139-183 | with `skip_crossover` and an elitism size `e` above the size `n`, the elites are the whole population and the stream its first `2n - e` members, or none for `e >= 2n`; the next population has `3n - e` members for `e < 2n` and `n` otherwise |
| Evolution.NegativeElitismSizeGrowsPopulation | netgene/ga.py:31-183 | the constructor keeps a negative elitism size `e`; with `skip_crossover` the stream is the whole population and the elites its first `n + e` members, or none for `e <= -n`, so the next population has `2n + e` members for `-n < e` and `n` otherwise |
| Evolution.TargetStopSeesWholePopulation | netgene/ga.py:47 | on a sorted population, the target condition holds exactly when some member reaches the target |
| Evolution.BreedFillsLimit | netgene/ga.py:167-180 | when every selection succeeds and every crossover yields a child, the stream is filled to exactly `limit` |
| Evolution.FailedSelectionsAddNothing | netgene/ga.py:197-209 | when every selection raises, the stream stays empty |
| Evolution.EvolveOnce | netgene/ga.py:129-130 | one round after a false check extends the run by the state `_evolve_generation()` leaves, which is installed even when it is empty; it fails exactly then, and otherwise reports the next check |
| Evolution.EvolveLoop | netgene/ga.py:125-130 | the loop stops at the end of a run from the starting state in which every earlier check answered false and every intermediate population had members, at a generation between the start and the limit, with no false check pending |
| Evolution.EvolveConcludes | netgene/ga.py:129-133 | after the loop, success means a true check, at the limit or by a later condition; an exception means an empty population, from the first check or from the last step |
| Evolution.Evolve | netgene/ga.py:125-133 | for a finite generation limit at or above the starting generation, `evolve` runs through states each one step after the last, while every earlier stop check answered false and every intermediate population had members. It ends with a true check at a generation between the start and the limit, which is the limit unless another condition holds. It raises only from the first check on an empty population, or from a step whose next population is empty, and then it is left in that empty state |

## Left out

- Threads: the thread pools and the executor are not modelled. The evaluation pool is not modelled either. Reproduction, mutation and evaluation run in stream order. The model does not state what a racing fitness callback could observe.
- Timing: the clock, `TaskExecutor` durations, the durations in `GenerationResult`, the generation tracker (`set_generation_tracker`), logging and the printer are not modelled. They are I/O or timing and do not affect the population.
- The operator implementations in `netgene/operators` and the `Population`, `Individual` and `Offspring` classes of `netgene/core.py` are not part of this model. They enter only as oracles and as the assumptions stated in `Populations`: a new individual is unevaluated, an unevaluated fitness ranks below every score (so it never reaches the target, and comparing it with the target never raises), `sort()` orders by descending fitness, and the best individual is the first one. The first stop check can see a population the caller has not evaluated; what `core.py`'s default fitness does in `target <= fitness` there is not stated.
- Populations.SortByFitness: the sort is not stated to be stable. Only the order and the multiset are stated.
- Floating point: floats are reals, so rounding, `inf` arithmetic and NaN are not modelled. `float('inf')` limits and targets are the `Unbounded` and `Unreachable` constructors.
- Chromosomes.NewFloatChromosome: `gauss` draws are arbitrary reals, and uniform draws are stated in range only for unit draws in `[0, 1]`.
- The `genes` property setters, `__iter__`, `__str__`, `__len__` and the abstract `NumericChromosome.average` are not modelled. The setters store any list unchecked, and the rest are plain delegation or text.
- The `isinstance(..., bool)` checks on `elitism`, `skip_crossover` and `skip_mutation` in the configuration are not modelled. In this model these fields are always booleans. The `elitism` setter's check is modelled by `Engine.SetElitism`.
- Configuration.NewConfiguration: the Python constructor sets the rate of a caller-supplied mutator before the later checks run. That side effect is not modelled when a later check fails. The `ValueError` for a `None` clock (ga.py line 305), raised after every modelled check, is not stated either, because the clock is not part of the model.
- The `GeneticConfiguration` property accessors, the `executor` setter, the commented-out block at the end of `netgene/ga.py`, `_demo.py` and `setup.py` are not modelled.
- Engine.NewGeneticAlgorithm: the `clock` and `printer` arguments are not modelled, so the `ValueError` for a `None` clock (ga.py line 37) is not stated. The mutator's `mutation_rate` setter, called at ga.py line 28, is part of `netgene/operators` and is taken to accept every rate; an error it raises is not modelled.
- Engine.AddCustomStopCondition: a `None` condition, which Python would accept and then fail to call, is not modelled.
- Evolution.Evolve: covers only a finite `max_generation` at or above the starting generation. Otherwise the loop can run forever unless some other condition fires, and that case is not stated.
- Evolution.SkipCrossoverMutatesElites: needs the starting population to hold no object twice.
- The fitness callback and the mutator are pure functions of the individual in the model. `_mutate` catches a `MutatorException` and keeps whatever the mutation had already changed; the mutator function's result stands for that state, raised or not. Any other exception from the mutator would end `evolve`, and that path is not modelled.

=== FILE: chromosome.dfy ===
/**
 * The chromosome data model of `pynetgene/chromosome.py`: a list of alleles
 * tagged with its variant (bit, integer, float, permutation), the validated
 * `add_gene` / `set_gene` / `insert_gene` of each variant, the unchecked base
 * accessors, the constructors (with their random draws passed in) and
 * `average`.
 *
 * A chromosome is a value here; object identity (a fresh list from `copy`,
 * the shared list behind `to_list`) is modelled in module ChromosomeStore.
 */
module Chromosomes {
  import opened Wrappers
  import opened PyList
  import Shuffling

  /** The concrete chromosome class. */
  datatype Kind = BitKind | IntegerKind | FloatKind | PermutationKind

  datatype Chromosome = Chromosome(kind: Kind, genes: seq<PyValue>)

  /** The exceptions the chromosome operations raise:
      `AlleleTypeError`, `EmptyRange` and `EmptyChromosome` are `ValueError`s,
      `DuplicateAllele` is a `GaException`, `IndexOutOfRange` an `IndexError`
      and `NonNumericAllele` the `TypeError` that `sum` raises. */
  datatype ChromosomeError =
    | AlleleTypeError
    | DuplicateAllele
    | IndexOutOfRange
    | EmptyRange
    | EmptyChromosome
    | NonNumericAllele

  // ---------------------------------------------------------------------------
  // Base accessors (class Chromosome)
  // ---------------------------------------------------------------------------

  /** `length()` and `len()`: the number of alleles, so `get_gene` answers
      exactly the indices `-n .. n-1`. */
  function Length(c: Chromosome): (n: nat)
    ensures n == |c.genes|
    ensures forall i: int :: 0 <= n + i && i < n ==> GetGene(c, i).Ok?
    ensures GetGene(c, n) == Err(IndexOutOfRange) && GetGene(c, -1 - n as int) == Err(IndexOutOfRange)
  {
    |c.genes|
  }

  /** `contains(gene)`, a test with Python's `==`: some index that `get_gene`
      answers holds an allele equal to `v`. */
  predicate Contains(c: Chromosome, v: PyValue): (b: bool)
    ensures b <==> exists i :: 0 <= i < Length(c) && GetGene(c, i).Ok? && PyEq(GetGene(c, i).value, v)
  {
    assert forall i :: 0 <= i < |c.genes| ==> GetGene(c, i) == Ok(c.genes[i]);
    PyIn(v, c.genes)
  }

  /** `get_gene(index)` and `c[index]`. */
  function GetGene(c: Chromosome, index: int): (r: Result<PyValue, ChromosomeError>)
    ensures r.Ok? <==> 0 <= |c.genes| + index && index < |c.genes|
    ensures r.Ok? && index >= 0 ==> r.value == c.genes[index]
    ensures r.Ok? && index < 0 ==> r.value == c.genes[|c.genes| + index]
    ensures r.Err? ==> r.error == IndexOutOfRange
  {
    match ResolveIndex(|c.genes|, index)
    case Ok(j) => Ok(c.genes[j])
    case Err(_) => Err(IndexOutOfRange)
  }

  /** `c[index] = value`: writes the slot with no validation at all. */
  function SetItem(c: Chromosome, index: int, v: PyValue): (r: Result<Chromosome, ChromosomeError>)
    ensures r.Ok? <==> 0 <= |c.genes| + index && index < |c.genes|
    ensures r.Ok? ==> r.value.kind == c.kind && |r.value.genes| == |c.genes|
    ensures r.Ok? ==> GetGene(r.value, index) == Ok(v)
    ensures r.Ok? ==> forall k :: 0 <= k < |c.genes| && ResolveIndex(|c.genes|, index) != Ok(k) ==>
                                   r.value.genes[k] == c.genes[k]
    ensures r.Err? ==> r.error == IndexOutOfRange
  {
    match ResolveIndex(|c.genes|, index)
    case Ok(j) => Ok(Chromosome(c.kind, c.genes[j := v]))
    case Err(_) => Err(IndexOutOfRange)
  }

  /** `to_list()`: the gene list itself (not a copy). */
  function ToList(c: Chromosome): (s: seq<PyValue>)
    ensures |s| == Length(c)
    ensures forall i :: 0 <= i < |s| ==> GetGene(c, i) == Ok(s[i])
  {
    c.genes
  }

  // ---------------------------------------------------------------------------
  // Per-variant validation
  // ---------------------------------------------------------------------------

  /** The type check `add_gene` and `set_gene` make before touching the list. */
  predicate AcceptsForAddOrSet(k: Kind, v: PyValue) {
    match k
    case BitKind => v.PyNone? || v.PyBool?
    case IntegerKind => v.PyNone? || IsInstanceInt(v)
    case FloatKind => IsInstanceInt(v) || v.PyFloat?
    case PermutationKind => IsInstanceInt(v)
  }

  /** The type check `insert_gene` makes; a bit chromosome wants a `BitGene`
      object here, unlike its `add_gene` and `set_gene`. */
  predicate AcceptsForInsert(k: Kind, v: PyValue) {
    match k
    case BitKind => v.PyBitGene?
    case IntegerKind => v.PyNone? || IsInstanceInt(v)
    case FloatKind => IsInstanceInt(v) || v.PyFloat?
    case PermutationKind => IsInstanceInt(v)
  }

  /** A permutation chromosome refuses an allele that is already `in` it,
      whatever the target slot. */
  predicate RefusesAsDuplicate(c: Chromosome, v: PyValue) {
    c.kind == PermutationKind && Contains(c, v)
  }

  /** The check shared by the three mutators: type first, then duplicates. */
  function Validate(c: Chromosome, v: PyValue, accepted: bool): (r: Result<(), ChromosomeError>)
    ensures r.Ok? <==> accepted && !RefusesAsDuplicate(c, v)
    ensures !accepted ==> r == Err(AlleleTypeError)
    ensures accepted && RefusesAsDuplicate(c, v) ==> r == Err(DuplicateAllele)
  {
    if !accepted then Err(AlleleTypeError)
    else if RefusesAsDuplicate(c, v) then Err(DuplicateAllele)
    else Ok(())
  }

  // ---------------------------------------------------------------------------
  // add_gene / set_gene / insert_gene
  // ---------------------------------------------------------------------------

  /** A permutation chromosome never holds two `==` alleles. */
  predicate PermutationInvariant(c: Chromosome) {
    c.kind == PermutationKind ==> PyDistinct(c.genes)
  }

  /** `add_gene(gene)`: appends after validation. */
  function AddGene(c: Chromosome, v: PyValue): (r: Result<Chromosome, ChromosomeError>)
    ensures r.Ok? <==> AcceptsForAddOrSet(c.kind, v) && !RefusesAsDuplicate(c, v)
    ensures !AcceptsForAddOrSet(c.kind, v) ==> r == Err(AlleleTypeError)
    ensures AcceptsForAddOrSet(c.kind, v) && RefusesAsDuplicate(c, v) ==> r == Err(DuplicateAllele)
    ensures r.Ok? ==> r.value.kind == c.kind
    ensures r.Ok? ==> |r.value.genes| == |c.genes| + 1
    ensures r.Ok? ==> r.value.genes[|c.genes|] == v && r.value.genes[..|c.genes|] == c.genes
    ensures r.Ok? && PermutationInvariant(c) ==> PermutationInvariant(r.value)
  {
    var _ :- Validate(c, v, AcceptsForAddOrSet(c.kind, v));
    Ok(Chromosome(c.kind, c.genes + [v]))
  }

  /** A gene that `add_gene` accepted is then reported by `contains`, and
      every gene contained before still is. */
  lemma AddedGeneIsContained(c: Chromosome, v: PyValue, u: PyValue)
    requires AddGene(c, v).Ok?
    ensures Contains(AddGene(c, v).value, v)
    ensures Contains(c, u) ==> Contains(AddGene(c, v).value, u)
    ensures Contains(AddGene(c, v).value, u) <==> Contains(c, u) || PyEq(v, u)
  {
    var d := AddGene(c, v).value;
    assert GetGene(d, |c.genes|) == Ok(v);
    if Contains(c, u) {
      var i :| 0 <= i < Length(c) && GetGene(c, i).Ok? && PyEq(GetGene(c, i).value, u);
      assert GetGene(d, i) == GetGene(c, i);
    }
    if Contains(d, u) {
      var i :| 0 <= i < Length(d) && GetGene(d, i).Ok? && PyEq(GetGene(d, i).value, u);
      if i < |c.genes| {
        assert GetGene(c, i) == GetGene(d, i);
      }
    }
  }

  /** `set_gene(index, gene)`: validation first, then the list write, which
      raises `IndexError` for an index outside `-len .. len-1`. */
  function SetGene(c: Chromosome, index: int, v: PyValue): (r: Result<Chromosome, ChromosomeError>)
    ensures r.Ok? <==>
      AcceptsForAddOrSet(c.kind, v) && !RefusesAsDuplicate(c, v)
      && 0 <= |c.genes| + index && index < |c.genes|
    ensures !AcceptsForAddOrSet(c.kind, v) ==> r == Err(AlleleTypeError)
    ensures AcceptsForAddOrSet(c.kind, v) && RefusesAsDuplicate(c, v) ==> r == Err(DuplicateAllele)
    ensures (AcceptsForAddOrSet(c.kind, v) && !RefusesAsDuplicate(c, v)
             && !(0 <= |c.genes| + index && index < |c.genes|)) ==> r == Err(IndexOutOfRange)
    ensures r.Ok? ==> r.value.kind == c.kind && |r.value.genes| == |c.genes|
    ensures r.Ok? ==> GetGene(r.value, index) == Ok(v)
    ensures r.Ok? ==> forall k :: 0 <= k < |c.genes| && ResolveIndex(|c.genes|, index) != Ok(k) ==>
                                  r.value.genes[k] == c.genes[k]
    ensures r.Ok? && PermutationInvariant(c) ==> PermutationInvariant(r.value)
  {
    var _ :- Validate(c, v, AcceptsForAddOrSet(c.kind, v));
    SetItem(c, index, v)
  }

  /** `insert_gene(index, gene)`: validation, then `list.insert`, which never
      raises and clamps the index into `0 .. len`. */
  function InsertGene(c: Chromosome, index: int, v: PyValue): (r: Result<Chromosome, ChromosomeError>)
    ensures r.Ok? <==> AcceptsForInsert(c.kind, v) && !RefusesAsDuplicate(c, v)
    ensures !AcceptsForInsert(c.kind, v) ==> r == Err(AlleleTypeError)
    ensures AcceptsForInsert(c.kind, v) && RefusesAsDuplicate(c, v) ==> r == Err(DuplicateAllele)
    ensures r.Ok? ==> r.value.kind == c.kind && |r.value.genes| == |c.genes| + 1
    ensures r.Ok? && 0 <= index <= |c.genes| ==>
              r.value.genes == c.genes[..index] + [v] + c.genes[index..]
    ensures r.Ok? && PermutationInvariant(c) ==> PermutationInvariant(r.value)
  {
    var _ :- Validate(c, v, AcceptsForInsert(c.kind, v));
    var s := InsertAt(c.genes, index, v);
    assert 0 <= index <= |c.genes| ==> s == c.genes[..index] + [v] + c.genes[index..];
    Ok(Chromosome(c.kind, s))
  }

  /** `copy()`: a chromosome of the same class holding the same alleles. */
  function Copy(c: Chromosome): (r: Chromosome)
    ensures r.kind == c.kind && Length(r) == Length(c)
    ensures forall i :: GetGene(r, i) == GetGene(c, i)
  {
    Chromosome(c.kind, c.genes)
  }

  // ---------------------------------------------------------------------------
  // What the validated mutators keep and what the unchecked write does not
  // ---------------------------------------------------------------------------

  /** Because `set_gene` looks for the allele in the whole list, writing a
      slot's own value back into it is refused. */
  lemma SetGeneRefusesCurrentValue(c: Chromosome, index: int)
    requires c.kind == PermutationKind
    requires 0 <= index < |c.genes| && IsInstanceInt(c.genes[index])
    ensures SetGene(c, index, c.genes[index]) == Err(DuplicateAllele)
  {
    assert PyEq(c.genes[index], c.genes[index]);
  }

  /** The unchecked `c[i] = v` can break the permutation invariant that the
      validated mutators keep. */
  lemma SetItemCanBreakPermutation()
    ensures var c := Chromosome(PermutationKind, [PyInt(0), PyInt(1)]);
            PermutationInvariant(c) && SetItem(c, 0, PyInt(1)).Ok?
            && !PermutationInvariant(SetItem(c, 0, PyInt(1)).value)
  {
    var c := Chromosome(PermutationKind, [PyInt(0), PyInt(1)]);
    var d := SetItem(c, 0, PyInt(1)).value;
    assert d.genes == [PyInt(1), PyInt(1)];
    assert PyEq(d.genes[0], d.genes[1]);
  }

  /** A bit chromosome takes a plain `bool` in `add_gene` and `set_gene` but
      only a `BitGene` object in `insert_gene`, and the other way round. */
  lemma BitChromosomeInsertWantsBitGene(c: Chromosome, b: bool, index: int)
    requires c.kind == BitKind
    ensures AddGene(c, PyBool(b)).Ok? && InsertGene(c, index, PyBool(b)) == Err(AlleleTypeError)
    ensures AddGene(c, PyBitGene(b)) == Err(AlleleTypeError) && InsertGene(c, index, PyBitGene(b)).Ok?
  {
  }

  // ---------------------------------------------------------------------------
  // Constructors; the random draws are parameters
  // ---------------------------------------------------------------------------

  /** The number of iterations of `range(size)`; a negative size gives none. */
  function RangeLength(size: int): (n: nat)
    ensures size >= 0 ==> n == size
    ensures size < 0 ==> n == 0
  {
    if size < 0 then 0 else size
  }

  /** `BitChromosome(size)`: `coin(i)` stands for the i-th `random.choice([True, False])`. */
  function NewBitChromosome(size: Option<int>, coin: nat -> bool): (c: Chromosome)
    ensures c.kind == BitKind
    ensures size.None? ==> c.genes == []
    ensures size.Some? ==> |c.genes| == RangeLength(size.value)
    ensures forall i :: 0 <= i < |c.genes| ==> c.genes[i] == PyBool(coin(i))
  {
    if size.Some? then Chromosome(BitKind, seq(RangeLength(size.value), i requires 0 <= i => PyBool(coin(i))))
    else Chromosome(BitKind, [])
  }

  /** The smallest and largest alleles of an `IntegerChromosome(size)` built
      without a range. */
  const MinInt32: int := -0x8000_0000
  const MaxInt32: int := 0x7FFF_FFFF

  /** `random.randint(lo, hi)` driven by an arbitrary draw: any integer draw
      is folded onto `lo .. hi`, and every value there is reachable. */
  function RandInt(lo: int, hi: int, draw: int): (r: int)
    requires lo <= hi
    ensures lo <= r <= hi
  {
    lo + draw % (hi - lo + 1)
  }

  lemma RandIntReachesEveryValue(lo: int, hi: int, v: int)
    requires lo <= v <= hi
    ensures RandInt(lo, hi, v - lo) == v
  {
  }

  /** `n` successive `random.randint(lo, hi)` draws. */
  function RandIntAlleles(n: nat, lo: int, hi: int, draw: nat -> int): (s: seq<PyValue>)
    requires lo <= hi
    ensures |s| == n
    ensures forall i :: 0 <= i < n ==> s[i] == PyInt(RandInt(lo, hi, draw(i)))
  {
    seq(n, i requires 0 <= i => PyInt(RandInt(lo, hi, draw(i))))
  }

  /** `IntegerChromosome(size, min_range, max_range)`: `draw(i)` feeds the
      i-th `random.randint`. `randint` raises on an empty range, but only
      once it is called, that is when `size > 0`. */
  function NewIntegerChromosome(size: Option<int>, minRange: Option<int>, maxRange: Option<int>,
                                draw: nat -> int): (r: Result<Chromosome, ChromosomeError>)
    ensures r.Err? <==> size.Some? && minRange.Some? && maxRange.Some?
                         && size.value > 0 && minRange.value > maxRange.value
    ensures r.Err? ==> r.error == EmptyRange
    ensures r.Ok? ==> r.value.kind == IntegerKind
    ensures r.Ok? && size.None? ==> r.value.genes == []
    ensures r.Ok? && size.Some? ==> |r.value.genes| == RangeLength(size.value)
    ensures r.Ok? && size.Some? && minRange.Some? && maxRange.Some? ==>
              forall i :: 0 <= i < |r.value.genes| ==>
                r.value.genes[i].PyInt? && minRange.value <= r.value.genes[i].n <= maxRange.value
    ensures r.Ok? && size.Some? && !(minRange.Some? && maxRange.Some?) ==>
              forall i :: 0 <= i < |r.value.genes| ==>
                r.value.genes[i].PyInt? && MinInt32 <= r.value.genes[i].n <= MaxInt32
  {
    if size.Some? && minRange.Some? && maxRange.Some? then
      var n := RangeLength(size.value);
      var lo, hi := minRange.value, maxRange.value;
      if n == 0 then Ok(Chromosome(IntegerKind, []))
      else if lo > hi then Err(EmptyRange)
      else Ok(Chromosome(IntegerKind, RandIntAlleles(n, lo, hi, draw)))
    else if size.Some? then
      var n := RangeLength(size.value);
      Ok(Chromosome(IntegerKind, RandIntAlleles(n, MinInt32, MaxInt32, draw)))
    else
      Ok(Chromosome(IntegerKind, []))
  }

  /** `random.uniform(a, b)`, that is `a + (b - a) * u` for the unit draw `u`;
      it raises for neither order of `a` and `b`. */
  function Uniform(a: real, b: real, u: real): (r: real)
    ensures 0.0 <= u <= 1.0 && a <= b ==> a <= r <= b
    ensures 0.0 <= u <= 1.0 && b <= a ==> b <= r <= a
  {
    UniformBetween(a, b, u);
    a + (b - a) * u
  }

  lemma UniformBetween(a: real, b: real, u: real)
    ensures 0.0 <= u <= 1.0 && a <= b ==> 0.0 <= (b - a) * u <= b - a
    ensures 0.0 <= u <= 1.0 && b <= a ==> b - a <= (b - a) * u <= 0.0
  {
    if 0.0 <= u <= 1.0 {
      var d := b - a;
      assert d - d * u == d * (1.0 - u);
      if a <= b {
        ProductNonNegative(d, u);
        ProductNonNegative(d, 1.0 - u);
      } else {
        ProductNonNegative(-d, u);
        ProductNonNegative(-d, 1.0 - u);
      }
    }
  }

  lemma ProductNonNegative(x: real, y: real)
    requires 0.0 <= x && 0.0 <= y
    ensures 0.0 <= x * y
  {
  }

  /** `FloatChromosome(size, min_range, max_range)`: with both bounds the i-th
      allele is `random.uniform` on the unit draw `unit(i)`, otherwise it is
      the i-th standard normal draw `gauss(i)`. */
  function NewFloatChromosome(size: Option<int>, minRange: Option<real>, maxRange: Option<real>,
                              unit: nat -> real, gauss: nat -> real): (c: Chromosome)
    ensures c.kind == FloatKind
    ensures size.None? ==> c.genes == []
    ensures size.Some? ==> |c.genes| == RangeLength(size.value)
    ensures forall i :: 0 <= i < |c.genes| ==> c.genes[i].PyFloat?
    ensures size.Some? && minRange.Some? && maxRange.Some? && minRange.value <= maxRange.value ==>
              forall i :: 0 <= i < |c.genes| && 0.0 <= unit(i) <= 1.0 ==>
                minRange.value <= c.genes[i].x <= maxRange.value
    ensures size.Some? && !(minRange.Some? && maxRange.Some?) ==>
              forall i :: 0 <= i < |c.genes| ==> c.genes[i] == PyFloat(gauss(i))
  {
    if size.Some? && minRange.Some? && maxRange.Some? then
      var lo, hi := minRange.value, maxRange.value;
      Chromosome(FloatKind, seq(RangeLength(size.value), i requires 0 <= i => PyFloat(Uniform(lo, hi, unit(i)))))
    else if size.Some? then
      Chromosome(FloatKind, seq(RangeLength(size.value), i requires 0 <= i => PyFloat(gauss(i))))
    else
      Chromosome(FloatKind, [])
  }

  /** The integers `start .. start+n-1`, in order. */
  function IntRange(start: int, n: nat): (s: seq<PyValue>)
    ensures |s| == n
    ensures forall i :: 0 <= i < n ==> s[i] == PyInt(start + i)
  {
    seq(n, i => PyInt(start + i))
  }

  /** `PermutationChromosome(size, start)`: `draw` feeds `random.shuffle`. */
  function NewPermutationChromosome(size: Option<int>, start: int, draw: nat -> nat): (c: Chromosome)
    ensures c.kind == PermutationKind
    ensures size.None? ==> c.genes == []
  {
    if size.Some? && start != 0 then
      Chromosome(PermutationKind, Shuffling.Shuffle(seq(RangeLength(size.value), i => PyInt(i + start)), draw))
    else if size.Some? then
      Chromosome(PermutationKind, Shuffling.Shuffle(seq(RangeLength(size.value), i => PyInt(i)), draw))
    else
      Chromosome(PermutationKind, [])
  }

  lemma {:induction false} IntRangeDistinct(start: int, n: nat)
    ensures PyDistinct(IntRange(start, n))
  {
    var s := IntRange(start, n);
    forall i, j | 0 <= i < n && 0 <= j < n && i != j
      ensures !PyEq(s[i], s[j])
    {
      assert NumericValue(s[i]) == (start + i) as real;
      assert NumericValue(s[j]) == (start + j) as real;
    }
  }

  /** Both constructor branches yield each of `start .. start+size-1` exactly
      once, in some order, and the permutation invariant holds. */
  lemma {:induction false} NewPermutationChromosomeIsPermutation(size: int, start: int, draw: nat -> nat)
    ensures var c := NewPermutationChromosome(Some(size), start, draw);
            && |c.genes| == RangeLength(size)
            && multiset(c.genes) == multiset(IntRange(start, RangeLength(size)))
            && PermutationInvariant(c)
  {
    var n := RangeLength(size);
    var base := IntRange(start, n);
    if start != 0 {
      assert seq(n, i => PyInt(i + start)) == base;
    } else {
      assert seq(n, i => PyInt(i)) == base;
    }
    IntRangeDistinct(start, n);
    Shuffling.ShufflePreservesDistinct(base, draw);
  }

  /** The same fact read slot by slot: every allele is one of
      `start .. start+size-1` ... */
  lemma PermutationChromosomeAllelesInRange(size: int, start: int, draw: nat -> nat, i: int)
    requires var c := NewPermutationChromosome(Some(size), start, draw); 0 <= i < |c.genes|
    ensures var c := NewPermutationChromosome(Some(size), start, draw);
            c.genes[i].PyInt? && start <= c.genes[i].n < start + RangeLength(size)
  {
    var c := NewPermutationChromosome(Some(size), start, draw);
    var base := IntRange(start, RangeLength(size));
    NewPermutationChromosomeIsPermutation(size, start, draw);
    assert c.genes[i] in multiset(c.genes);
    assert c.genes[i] in base;
  }

  /** ... and every one of those values is present. */
  lemma PermutationChromosomeHasEveryValue(size: int, start: int, draw: nat -> nat, v: int)
    requires start <= v < start + RangeLength(size)
    ensures PyInt(v) in NewPermutationChromosome(Some(size), start, draw).genes
  {
    var c := NewPermutationChromosome(Some(size), start, draw);
    var base := IntRange(start, RangeLength(size));
    NewPermutationChromosomeIsPermutation(size, start, draw);
    assert base[v - start] == PyInt(v);
    assert PyInt(v) in multiset(base);
  }

  // ---------------------------------------------------------------------------
  // average
  // ---------------------------------------------------------------------------

  /** Python's `sum` over a list of numbers. */
  function Sum(s: seq<PyValue>): real
    requires forall i :: 0 <= i < |s| ==> IsNumeric(s[i])
  {
    if s == [] then 0.0 else Sum(s[..|s| - 1]) + NumericValue(s[|s| - 1])
  }

  /** `average()` of an integer, float or permutation chromosome: raises on an
      empty chromosome and on a non-number, else the exact mean. */
  function Average(c: Chromosome): (r: Result<real, ChromosomeError>)
    requires c.kind != BitKind
    ensures r.Ok? <==> |c.genes| > 0 && forall i :: 0 <= i < |c.genes| ==> IsNumeric(c.genes[i])
    ensures |c.genes| == 0 ==> r == Err(EmptyChromosome)
    ensures r.Ok? ==> r.value * (|c.genes| as real) == Sum(c.genes)
  {
    if |c.genes| == 0 then Err(EmptyChromosome)
    else if exists i :: 0 <= i < |c.genes| && !IsNumeric(c.genes[i]) then Err(NonNumericAllele)
    else Ok(Sum(c.genes) / (|c.genes| as real))
  }

  lemma {:induction false} SumBounds(s: seq<PyValue>, lo: real, hi: real)
    requires forall i :: 0 <= i < |s| ==> IsNumeric(s[i]) && lo <= NumericValue(s[i]) <= hi
    ensures (|s| as real) * lo <= Sum(s) <= (|s| as real) * hi
  {
    if s != [] {
      var front := s[..|s| - 1];
      assert forall i :: 0 <= i < |front| ==> front[i] == s[i];
      SumBounds(front, lo, hi);
      var m := |front| as real;
      assert |s| as real == m + 1.0;
      assert Sum(s) == Sum(front) + NumericValue(s[|s| - 1]);
      AddWithinBounds(m, Sum(front), NumericValue(s[|s| - 1]), lo, hi);
    }
  }

  /** One more term between `lo` and `hi` moves the bounds of a total of `m` terms by one step. */
  lemma AddWithinBounds(m: real, total: real, x: real, lo: real, hi: real)
    requires m * lo <= total <= m * hi && lo <= x <= hi
    ensures (m + 1.0) * lo <= total + x <= (m + 1.0) * hi
  {
    assert (m + 1.0) * lo == m * lo + lo && (m + 1.0) * hi == m * hi + hi;
  }

  /** The mean lies between the smallest and the largest allele bound. */
  lemma AverageWithinBounds(c: Chromosome, lo: real, hi: real)
    requires c.kind != BitKind && |c.genes| > 0
    requires forall i :: 0 <= i < |c.genes| ==> IsNumeric(c.genes[i]) && lo <= NumericValue(c.genes[i]) <= hi
    ensures Average(c).Ok? && lo <= Average(c).value <= hi
  {
    SumBounds(c.genes, lo, hi);
    var n := |c.genes| as real;
    var a := Average(c).value;
    MeanBetween(Sum(c.genes), n, a, lo, hi);
  }

  /** A mean of `n` values whose total lies between `n * lo` and `n * hi`
      lies between `lo` and `hi`. */
  lemma MeanBetween(total: real, n: real, a: real, lo: real, hi: real)
    requires n > 0.0 && n * lo <= total <= n * hi && a * n == total
    ensures lo <= a <= hi
  {
    assert lo * n == n * lo && hi * n == n * hi;
    ScaleCancels(lo, a, n);
    ScaleCancels(a, hi, n);
  }

  /** Dividing both sides of `x * n <= y * n` by a positive `n`. */
  lemma ScaleCancels(x: real, y: real, n: real)
    requires n > 0.0 && x * n <= y * n
    ensures x <= y
  {
    PositiveProduct(x - y, n);
    assert (x - y) * n == x * n - y * n;
  }

  lemma PositiveProduct(d: real, n: real)
    requires n > 0.0
    ensures d > 0.0 ==> d * n > 0.0
  {
  }
}

=== FILE: chromosome_store.dfy ===
/**
 * Object identity for chromosomes. In `pynetgene/chromosome.py` a chromosome
 * object points at a Python list object; `add_gene`, `set_gene` and
 * `insert_gene` change that list in place, `copy()` gives the new chromosome
 * a fresh list, and `to_list()` hands out the chromosome's own list.
 * A `Store` holds both kinds of objects, so that sharing can be stated.
 */
module ChromosomeStore {
  import opened Wrappers
  import opened PyList
  import opened Chromosomes

  type Ref = nat

  /** A chromosome object: its class and the list object holding its genes. */
  datatype ChromosomeObject = ChromosomeObject(kind: Kind, list: Ref)

  datatype Store = Store(chromosomes: map<Ref, ChromosomeObject>, lists: map<Ref, seq<PyValue>>, next: Ref)

  /** Every chromosome's list exists and `next` is above every allocated reference. */
  predicate Valid(st: Store) {
    && (forall c :: c in st.chromosomes ==> c < st.next && st.chromosomes[c].list in st.lists)
    && (forall l :: l in st.lists ==> l < st.next)
  }

  /** The chromosome value that object `c` currently denotes. */
  function View(st: Store, c: Ref): (v: Chromosome)
    requires Valid(st) && c in st.chromosomes
    ensures v.kind == st.chromosomes[c].kind
  {
    Chromosome(st.chromosomes[c].kind, st.lists[st.chromosomes[c].list])
  }

  /** Replace the contents of the list behind chromosome `c`. */
  function WriteGenes(st: Store, c: Ref, genes: seq<PyValue>): (st': Store)
    requires Valid(st) && c in st.chromosomes
    ensures Valid(st') && st'.chromosomes == st.chromosomes
    ensures View(st', c) == Chromosome(View(st, c).kind, genes)
    ensures forall d :: d in st.chromosomes && st.chromosomes[d].list != st.chromosomes[c].list ==>
                        View(st', d) == View(st, d)
  {
    st.(lists := st.lists[st.chromosomes[c].list := genes])
  }

  /** `copy()`: a new chromosome object of the same class over a new list
      object holding the same alleles. */
  function CopyObject(st: Store, c: Ref): (r: (Store, Ref))
    requires Valid(st) && c in st.chromosomes
    ensures Valid(r.0) && r.1 in r.0.chromosomes && r.1 !in st.chromosomes
    ensures View(r.0, r.1) == View(st, c)
    ensures forall d :: d in st.lists ==> r.0.chromosomes[r.1].list != d
    ensures forall d :: d in st.chromosomes ==> d in r.0.chromosomes && r.0.chromosomes[d] == st.chromosomes[d]
    ensures forall d :: d in st.chromosomes ==> View(r.0, d) == View(st, d)
  {
    var l := st.next;
    var n := st.next + 1;
    var st' := Store(st.chromosomes[n := ChromosomeObject(st.chromosomes[c].kind, l)],
                     st.lists[l := st.lists[st.chromosomes[c].list]],
                     st.next + 2);
    (st', n)
  }

  /** `to_list()`: the chromosome's own list object. */
  function ToListObject(st: Store, c: Ref): (l: Ref)
    requires Valid(st) && c in st.chromosomes
    ensures l in st.lists && st.lists[l] == ToList(View(st, c))
  {
    st.chromosomes[c].list
  }

  /** `lst[index] = v` on a list object. */
  function ListSetItem(st: Store, l: Ref, index: int, v: PyValue): (r: Result<Store, ListError>)
    requires Valid(st) && l in st.lists
    ensures r.Ok? <==> 0 <= |st.lists[l]| + index && index < |st.lists[l]|
    ensures r.Ok? ==> Valid(r.value) && r.value.chromosomes == st.chromosomes
    ensures r.Ok? ==> r.value.lists.Keys == st.lists.Keys
    ensures r.Ok? ==> forall d :: d in st.lists && d != l ==> r.value.lists[d] == st.lists[d]
  {
    var j :- ResolveIndex(|st.lists[l]|, index);
    Ok(st.(lists := st.lists[l := st.lists[l][j := v]]))
  }

  /** `add_gene`, `set_gene` and `insert_gene` on an object: the value-level
      operation, written back into the object's list. */
  function AddGeneAt(st: Store, c: Ref, v: PyValue): (r: Result<Store, ChromosomeError>)
    requires Valid(st) && c in st.chromosomes
    ensures r.Ok? <==> AddGene(View(st, c), v).Ok?
    ensures r.Ok? ==> Valid(r.value) && r.value.chromosomes == st.chromosomes
                      && View(r.value, c) == AddGene(View(st, c), v).value
    ensures r.Ok? ==> forall d :: d in st.chromosomes && st.chromosomes[d].list != st.chromosomes[c].list ==>
                                   View(r.value, d) == View(st, d)
  {
    var after :- AddGene(View(st, c), v);
    Ok(WriteGenes(st, c, after.genes))
  }

  function SetGeneAt(st: Store, c: Ref, index: int, v: PyValue): (r: Result<Store, ChromosomeError>)
    requires Valid(st) && c in st.chromosomes
    ensures r.Ok? <==> SetGene(View(st, c), index, v).Ok?
    ensures r.Ok? ==> Valid(r.value) && r.value.chromosomes == st.chromosomes
                      && View(r.value, c) == SetGene(View(st, c), index, v).value
    ensures r.Ok? ==> forall d :: d in st.chromosomes && st.chromosomes[d].list != st.chromosomes[c].list ==>
                                   View(r.value, d) == View(st, d)
  {
    var after :- SetGene(View(st, c), index, v);
    Ok(WriteGenes(st, c, after.genes))
  }

  function InsertGeneAt(st: Store, c: Ref, index: int, v: PyValue): (r: Result<Store, ChromosomeError>)
    requires Valid(st) && c in st.chromosomes
    ensures r.Ok? <==> InsertGene(View(st, c), index, v).Ok?
    ensures r.Ok? ==> Valid(r.value) && r.value.chromosomes == st.chromosomes
                      && View(r.value, c) == InsertGene(View(st, c), index, v).value
    ensures r.Ok? ==> forall d :: d in st.chromosomes && st.chromosomes[d].list != st.chromosomes[c].list ==>
                                   View(r.value, d) == View(st, d)
  {
    var after :- InsertGene(View(st, c), index, v);
    Ok(WriteGenes(st, c, after.genes))
  }

  /** A write through the copy never reaches the original: after `copy()`,
      any change to the copy's genes leaves the original's genes as they were. */
  lemma CopyIsolatesOriginal(st: Store, c: Ref, genes: seq<PyValue>)
    requires Valid(st) && c in st.chromosomes
    ensures var (st1, d) := CopyObject(st, c);
            View(WriteGenes(st1, d, genes), c) == View(st, c)
  {
    var (st1, d) := CopyObject(st, c);
    assert st1.chromosomes[c].list in st.lists;
  }

  /** In particular `copy().set_gene(...)`, `copy().add_gene(...)` and
      `copy().insert_gene(...)` leave the original unchanged. */
  lemma CopyThenMutateLeavesOriginal(st: Store, c: Ref, index: int, v: PyValue)
    requires Valid(st) && c in st.chromosomes
    ensures var (st1, d) := CopyObject(st, c);
            && (SetGeneAt(st1, d, index, v).Ok? ==> View(SetGeneAt(st1, d, index, v).value, c) == View(st, c))
            && (AddGeneAt(st1, d, v).Ok? ==> View(AddGeneAt(st1, d, v).value, c) == View(st, c))
            && (InsertGeneAt(st1, d, index, v).Ok? ==> View(InsertGeneAt(st1, d, index, v).value, c) == View(st, c))
  {
    var (st1, d) := CopyObject(st, c);
    if SetGeneAt(st1, d, index, v).Ok? {
      CopyIsolatesOriginal(st, c, SetGene(View(st1, d), index, v).value.genes);
    }
    if AddGeneAt(st1, d, v).Ok? {
      CopyIsolatesOriginal(st, c, AddGene(View(st1, d), v).value.genes);
    }
    if InsertGeneAt(st1, d, index, v).Ok? {
      CopyIsolatesOriginal(st, c, InsertGene(View(st1, d), index, v).value.genes);
    }
  }

  /** By contrast the list from `to_list()` is the chromosome's own: writing
      into it changes the chromosome, with no validation. */
  lemma ToListAliasesChromosome(st: Store, c: Ref, index: int, v: PyValue)
    requires Valid(st) && c in st.chromosomes
    requires 0 <= index < |View(st, c).genes|
    ensures var r := ListSetItem(st, ToListObject(st, c), index, v);
            r.Ok? && GetGene(View(r.value, c), index) == Ok(v)
  {
    var l := ToListObject(st, c);
    var r := ListSetItem(st, l, index, v);
    assert r.value.lists[l] == st.lists[l][index := v];
  }
}

=== FILE: configuration.dfy ===
/**
 * `GeneticConfiguration.__init__` of `netgene/ga.py`: the defaults it fills
 * in and the checks it makes, in the order it makes them.
 *
 * Operators are named, not implemented: their classes live in
 * `netgene/operators`, which is not part of this model. The engine reads
 * their behaviour from the oracles of module Evolution.
 */
module Configuration {
  import opened Wrappers

  /** A parent selector; `RandomSelector` is the default. */
  datatype Selector = RandomSelector | OtherSelector(name: string)

  /** A crossover operator; `OnePointCrossover` is the default. */
  datatype CrossoverOperator = OnePointCrossover | OtherCrossover(name: string)

  /** A mutator class; `GaussianMutator` is the default. */
  datatype MutatorKind = GaussianMutator | OtherMutator(name: string)

  /** A mutator object with its own `mutation_rate` property. */
  datatype Mutator = Mutator(kind: MutatorKind, rate: real)

  /** `max_generation`: a number, or `float('inf')`. */
  datatype GenerationLimit = Unbounded | Bounded(n: int)

  /** `target_fitness`: a number, or `float('inf')`, which no fitness reaches. */
  datatype TargetFitness = Unreachable | Target(value: real)

  /** The keyword arguments of `GeneticConfiguration(...)`; `None` is an
      omitted operator or a `None` target. */
  datatype Settings = Settings(
    parentSelector: Option<Selector>,
    crossoverOperator: Option<CrossoverOperator>,
    mutatorOperator: Option<Mutator>,
    crossoverRate: real,
    mutationRate: real,
    elitism: bool,
    elitismSize: int,
    maxGeneration: GenerationLimit,
    targetFitness: Option<TargetFitness>,
    skipCrossover: bool,
    skipMutation: bool,
    nThreads: int)

  /** The default keyword arguments; `activeThreads` is `threading.active_count()`. */
  function DefaultSettings(activeThreads: int): (s: Settings)
    ensures s.parentSelector.None? && s.crossoverOperator.None? && s.mutatorOperator.None?
    ensures s.crossoverRate == 0.8 && s.mutationRate == 0.05
    ensures s.elitism && s.elitismSize == 1
    ensures s.maxGeneration == Unbounded && s.targetFitness == Some(Unreachable)
    ensures !s.skipCrossover && !s.skipMutation && s.nThreads == activeThreads
  {
    Settings(None, None, None, 0.8, 0.05, true, 1, Unbounded, Some(Unreachable), false, false, activeThreads)
  }

  /** A validated configuration. */
  datatype GeneticConfiguration = GeneticConfiguration(
    selector: Selector,
    crossover: CrossoverOperator,
    mutator: Mutator,
    crossoverRate: real,
    mutationRate: real,
    elitism: bool,
    elitismSize: int,
    maxGeneration: GenerationLimit,
    targetFitness: TargetFitness,
    skipCrossover: bool,
    skipMutation: bool,
    nThreads: int)

  /** What the constructor raises. `TargetFitnessMissing` is the `ValueError`
      of `verify_is_not_null`; all others are `GaException`s. */
  datatype ConfigError =
    | MutationRateNotPositive
    | MutationRateAboveOne
    | CrossoverRateNotPositive
    | CrossoverRateAboveOne
    | NegativeElitismSize
    | MaxGenerationBelowOne
    | ThreadPoolBelowOne
    | TargetFitnessMissing

  /** Both rates lie in `(0, 1]`. */
  predicate RatesAcceptable(s: Settings) {
    0.0 < s.mutationRate <= 1.0 && 0.0 < s.crossoverRate <= 1.0
  }

  /** Every numeric setting is in its range. */
  predicate NumbersAcceptable(s: Settings) {
    && RatesAcceptable(s)
    && s.elitismSize >= 0
    && (s.maxGeneration.Bounded? ==> s.maxGeneration.n >= 1)
    && s.nThreads >= 1
  }

  /** The settings the constructor accepts, stated field by field. */
  predicate Acceptable(s: Settings) {
    NumbersAcceptable(s) && s.targetFitness.Some?
  }

  /** Raise `e` unless `ok`. */
  function Check(ok: bool, e: ConfigError): (r: Result<(), ConfigError>)
    ensures r.Ok? <==> ok
    ensures r.Err? ==> r.error == e
  {
    if ok then Ok(()) else Err(e)
  }

  /** `GeneticConfiguration(...)`. */
  function NewConfiguration(s: Settings): (r: Result<GeneticConfiguration, ConfigError>)
    ensures r.Ok? <==> Acceptable(s)
    ensures s.mutationRate <= 0.0 ==> r == Err(MutationRateNotPositive)
    ensures s.mutationRate > 1.0 ==> r == Err(MutationRateAboveOne)
    ensures 0.0 < s.mutationRate <= 1.0 && s.crossoverRate <= 0.0 ==> r == Err(CrossoverRateNotPositive)
    ensures 0.0 < s.mutationRate <= 1.0 && s.crossoverRate > 1.0 ==> r == Err(CrossoverRateAboveOne)
    ensures RatesAcceptable(s) && s.elitismSize < 0 ==> r == Err(NegativeElitismSize)
    ensures RatesAcceptable(s) && s.elitismSize >= 0 && s.maxGeneration.Bounded? && s.maxGeneration.n <= 0 ==>
              r == Err(MaxGenerationBelowOne)
    ensures (RatesAcceptable(s) && s.elitismSize >= 0 && !(s.maxGeneration.Bounded? && s.maxGeneration.n <= 0)
             && s.nThreads < 1) ==> r == Err(ThreadPoolBelowOne)
    ensures NumbersAcceptable(s) && s.targetFitness.None? ==> r == Err(TargetFitnessMissing)
    ensures r.Ok? ==> r.value.mutator.rate == s.mutationRate
    ensures r.Ok? ==> r.value.selector == (if s.parentSelector.None? then RandomSelector else s.parentSelector.value)
    ensures r.Ok? ==> r.value.crossover == (if s.crossoverOperator.None? then OnePointCrossover else s.crossoverOperator.value)
    ensures r.Ok? ==> r.value.mutator.kind == (if s.mutatorOperator.None? then GaussianMutator else s.mutatorOperator.value.kind)
    ensures r.Ok? ==> r.value.targetFitness == s.targetFitness.value
    ensures r.Ok? ==> && r.value.crossoverRate == s.crossoverRate && r.value.mutationRate == s.mutationRate
                      && r.value.elitism == s.elitism && r.value.elitismSize == s.elitismSize
                      && r.value.maxGeneration == s.maxGeneration && r.value.nThreads == s.nThreads
                      && r.value.skipCrossover == s.skipCrossover && r.value.skipMutation == s.skipMutation
  {
    var selector := if s.parentSelector.None? then RandomSelector else s.parentSelector.value;
    var crossover := if s.crossoverOperator.None? then OnePointCrossover else s.crossoverOperator.value;
    var mutatorKind := if s.mutatorOperator.None? then GaussianMutator else s.mutatorOperator.value.kind;
    var _ :- Check(s.mutationRate > 0.0, MutationRateNotPositive);
    var _ :- Check(s.mutationRate <= 1.0, MutationRateAboveOne);
    var mutator := Mutator(mutatorKind, s.mutationRate);
    var _ :- Check(s.crossoverRate > 0.0, CrossoverRateNotPositive);
    var _ :- Check(s.crossoverRate <= 1.0, CrossoverRateAboveOne);
    var _ :- Check(s.elitismSize >= 0, NegativeElitismSize);
    var _ :- Check(!(s.maxGeneration.Bounded? && s.maxGeneration.n <= 0), MaxGenerationBelowOne);
    var _ :- Check(s.nThreads >= 1, ThreadPoolBelowOne);
    var _ :- Check(s.targetFitness.Some?, TargetFitnessMissing);
    Ok(GeneticConfiguration(selector, crossover, mutator, s.crossoverRate, s.mutationRate, s.elitism,
                            s.elitismSize, s.maxGeneration, s.targetFitness.value, s.skipCrossover,
                            s.skipMutation, s.nThreads))
  }

  /** The defaults are accepted whenever at least one thread is running, and
      the default selector is `RandomSelector`. */
  lemma DefaultsAccepted(activeThreads: int)
    requires activeThreads >= 1
    ensures NewConfiguration(DefaultSettings(activeThreads)).Ok?
    ensures NewConfiguration(DefaultSettings(activeThreads)).value.selector == RandomSelector
  {
  }
}

=== FILE: engine.dfy ===
/**
 * The state of `GeneticAlgorithm` in `netgene/ga.py`: its constructor, its
 * validating property setters, its list of stop conditions and the
 * disjunctive stop check.
 */
module Engine {
  import opened Wrappers
  import opened PyList
  import opened Configuration
  import opened Populations

  /** What a stop condition sees: the individuals and the generation counter. */
  datatype PopulationView = PopulationView(individuals: seq<Individual>, generation: int)

  /** An entry of `_stop_conditions`. The two built-in ones read the engine's
      fields when they are called, not when they are registered. */
  datatype StopCondition =
    | MaxGenerationStop
    | TargetFitnessStop
    | CustomStop(holds: PopulationView -> bool)

  datatype GeneticAlgorithm = GeneticAlgorithm(
    selector: Selector,
    crossover: CrossoverOperator,
    mutator: Mutator,
    crossoverRate: real,
    mutationRate: real,
    elitism: bool,
    elitismSize: int,
    maxGeneration: GenerationLimit,
    targetFitness: TargetFitness,
    skipCrossover: bool,
    skipMutation: bool,
    nThreads: int,
    stopConditions: seq<StopCondition>)

  /** What the engine's constructor and setters raise: `ElitismSizeNegative`
      and `OperatorMissing` are `GaException`s, the others `ValueError`s
      (`NoWorkers` is the one `ThreadPoolExecutor` raises). */
  datatype EngineError =
    | RateOutOfRange
    | ElitismNotBoolean
    | ElitismSizeNegative
    | OperatorMissing
    | TargetFitnessNone
    | NoWorkers

  /** `GeneticAlgorithm(...)`: no range checks on rates or sizes; a `None`
      target raises first, then the thread pool refuses fewer than one worker.
      The mutator takes the engine's mutation rate and the two built-in stop
      conditions are registered. */
  function NewGeneticAlgorithm(selector: Selector, crossover: CrossoverOperator, mutator: Mutator,
                               crossoverRate: real, mutationRate: real, elitism: bool, elitismSize: int,
                               maxGeneration: GenerationLimit, targetFitness: Option<TargetFitness>,
                               skipCrossover: bool, skipMutation: bool, nThreads: int)
    : (r: Result<GeneticAlgorithm, EngineError>)
    ensures r.Err? <==> targetFitness.None? || nThreads < 1
    ensures r.Err? ==> r.error == (if targetFitness.None? then TargetFitnessNone else NoWorkers)
    ensures r.Ok? ==> r.value.mutator == Mutator(mutator.kind, mutationRate)
    ensures r.Ok? ==> |r.value.stopConditions| == 2
                      && r.value.stopConditions[0].MaxGenerationStop? && r.value.stopConditions[1].TargetFitnessStop?
    ensures r.Ok? ==> r.value.elitismSize == elitismSize && r.value.crossoverRate == crossoverRate
                      && r.value.mutationRate == mutationRate && r.value.maxGeneration == maxGeneration
  {
    if targetFitness.None? then Err(TargetFitnessNone)
    else if nThreads < 1 then Err(NoWorkers)
    else
      Ok(GeneticAlgorithm(selector, crossover, Mutator(mutator.kind, mutationRate), crossoverRate, mutationRate,
                          elitism, elitismSize, maxGeneration, targetFitness.value, skipCrossover, skipMutation,
                          nThreads, [MaxGenerationStop, TargetFitnessStop]))
  }

  /** `get_algorithm()`: an engine with the configuration's settings. Only the
      thread pool can refuse, and `ConfiguredAlgorithmBuilds` shows it never
      does for a configuration that passed its own checks. */
  function GetAlgorithm(cfg: GeneticConfiguration): (r: Result<GeneticAlgorithm, EngineError>)
    ensures r.Ok? <==> cfg.nThreads >= 1
    ensures r.Err? ==> r.error == NoWorkers
    ensures r.Ok? ==> WellFormed(r.value)
    ensures r.Ok? ==> var ga := r.value;
                      && ga.selector == cfg.selector && ga.crossover == cfg.crossover
                      && ga.crossoverRate == cfg.crossoverRate && ga.mutationRate == cfg.mutationRate
                      && ga.elitism == cfg.elitism && ga.elitismSize == cfg.elitismSize
                      && ga.maxGeneration == cfg.maxGeneration && ga.targetFitness == cfg.targetFitness
                      && ga.skipCrossover == cfg.skipCrossover && ga.skipMutation == cfg.skipMutation
                      && ga.nThreads == cfg.nThreads
  {
    NewGeneticAlgorithm(cfg.selector, cfg.crossover, cfg.mutator, cfg.crossoverRate, cfg.mutationRate,
                        cfg.elitism, cfg.elitismSize, cfg.maxGeneration, Some(cfg.targetFitness),
                        cfg.skipCrossover, cfg.skipMutation, cfg.nThreads)
  }

  /** Every configuration that `GeneticConfiguration(...)` accepts yields an engine. */
  lemma ConfiguredAlgorithmBuilds(s: Settings)
    ensures NewConfiguration(s).Ok? ==> GetAlgorithm(NewConfiguration(s).value).Ok?
  {
  }

  /** What every engine state keeps: the generation limit is checked first. */
  predicate WellFormed(ga: GeneticAlgorithm) {
    |ga.stopConditions| >= 1 && ga.stopConditions[0].MaxGenerationStop?
  }

  // ---------------------------------------------------------------------------
  // Property setters
  // ---------------------------------------------------------------------------

  /** `mutation_rate = x`: accepts `[0, 1]`; the mutator's own rate is not touched. */
  function SetMutationRate(ga: GeneticAlgorithm, x: real): (r: Result<GeneticAlgorithm, EngineError>)
    ensures r.Ok? <==> 0.0 <= x <= 1.0
    ensures r.Err? ==> r.error == RateOutOfRange
    ensures r.Ok? ==> r.value.mutationRate == x && r.value.mutator == ga.mutator
    ensures r.Ok? ==> r.value == ga.(mutationRate := x)
  {
    if 0.0 <= x <= 1.0 then Ok(ga.(mutationRate := x)) else Err(RateOutOfRange)
  }

  /** `crossover_rate = x`: accepts `[0, 1]` but stores `x` as the mutation
      rate; the crossover rate keeps its value. */
  function SetCrossoverRate(ga: GeneticAlgorithm, x: real): (r: Result<GeneticAlgorithm, EngineError>)
    ensures r.Ok? <==> 0.0 <= x <= 1.0
    ensures r.Err? ==> r.error == RateOutOfRange
    ensures r.Ok? ==> r.value.crossoverRate == ga.crossoverRate && r.value.mutationRate == x
    ensures r.Ok? ==> r.value == ga.(mutationRate := x)
  {
    if 0.0 <= x <= 1.0 then Ok(ga.(mutationRate := x)) else Err(RateOutOfRange)
  }

  /** `elitism = v`: accepts exactly the two booleans. */
  function SetElitism(ga: GeneticAlgorithm, v: PyValue): (r: Result<GeneticAlgorithm, EngineError>)
    ensures r.Ok? <==> v.PyBool?
    ensures r.Err? ==> r.error == ElitismNotBoolean
    ensures r.Ok? ==> r.value == ga.(elitism := v.b)
  {
    match v
    case PyBool(b) => Ok(ga.(elitism := b))
    case _ => Err(ElitismNotBoolean)
  }

  /** `elitism_size = n`: refuses a negative size and nothing else, not even
      one above the population size. */
  function SetElitismSize(ga: GeneticAlgorithm, n: int): (r: Result<GeneticAlgorithm, EngineError>)
    ensures r.Ok? <==> n >= 0
    ensures r.Err? ==> r.error == ElitismSizeNegative
    ensures r.Ok? ==> r.value == ga.(elitismSize := n)
  {
    if n < 0 then Err(ElitismSizeNegative) else Ok(ga.(elitismSize := n))
  }

  /** `mutator_operator = m`: refuses `None`. The new mutator keeps its own rate. */
  function SetMutatorOperator(ga: GeneticAlgorithm, m: Option<Mutator>): (r: Result<GeneticAlgorithm, EngineError>)
    ensures r.Ok? <==> m.Some?
    ensures r.Err? ==> r.error == OperatorMissing
    ensures r.Ok? ==> r.value == ga.(mutator := m.value)
  {
    if m.None? then Err(OperatorMissing) else Ok(ga.(mutator := m.value))
  }

  /** `crossover_operator = c`: refuses `None`. */
  function SetCrossoverOperator(ga: GeneticAlgorithm, c: Option<CrossoverOperator>)
    : (r: Result<GeneticAlgorithm, EngineError>)
    ensures r.Ok? <==> c.Some?
    ensures r.Err? ==> r.error == OperatorMissing
    ensures r.Ok? ==> r.value == ga.(crossover := c.value)
  {
    if c.None? then Err(OperatorMissing) else Ok(ga.(crossover := c.value))
  }

  /** `set_custom_stop_condition(p)`: appends `p` behind the existing conditions. */
  function AddCustomStopCondition(ga: GeneticAlgorithm, p: PopulationView -> bool): (r: GeneticAlgorithm)
    ensures |r.stopConditions| == |ga.stopConditions| + 1
    ensures r.stopConditions[..|ga.stopConditions|] == ga.stopConditions
    ensures r.stopConditions[|ga.stopConditions|] == CustomStop(p)
    ensures r == ga.(stopConditions := r.stopConditions)
  {
    ga.(stopConditions := ga.stopConditions + [CustomStop(p)])
  }

  /** The setters never break `WellFormed`. */
  lemma SettersPreserveWellFormed(ga: GeneticAlgorithm, x: real, v: PyValue, n: int, m: Option<Mutator>,
                                  c: Option<CrossoverOperator>, p: PopulationView -> bool)
    requires WellFormed(ga)
    ensures SetElitism(ga, v).Ok? ==> WellFormed(SetElitism(ga, v).value)
    ensures SetMutationRate(ga, x).Ok? ==> WellFormed(SetMutationRate(ga, x).value)
    ensures SetCrossoverRate(ga, x).Ok? ==> WellFormed(SetCrossoverRate(ga, x).value)
    ensures SetElitismSize(ga, n).Ok? ==> WellFormed(SetElitismSize(ga, n).value)
    ensures SetMutatorOperator(ga, m).Ok? ==> WellFormed(SetMutatorOperator(ga, m).value)
    ensures SetCrossoverOperator(ga, c).Ok? ==> WellFormed(SetCrossoverOperator(ga, c).value)
    ensures WellFormed(AddCustomStopCondition(ga, p))
  {
  }

  // ---------------------------------------------------------------------------
  // The stop check
  // ---------------------------------------------------------------------------

  /** The individuals of population `p` as its stop conditions see them. */
  function View(w: World, p: Population): (v: PopulationView)
    requires Inhabits(w, p.members)
    ensures v.generation == p.generation && v.individuals == Snapshot(w, p.members)
  {
    PopulationView(Snapshot(w, p.members), p.generation)
  }

  /** `target_fitness <= fitness`; an unevaluated individual reaches no target. */
  predicate Reaches(f: Fitness, t: TargetFitness) {
    t.Target? && f.Scored? && t.value <= f.value
  }

  /** One stop condition applied to the population. The target condition
      asks for the best individual and so fails on an empty population. */
  function Fires(ga: GeneticAlgorithm, w: World, p: Population, c: StopCondition): (r: Result<bool, PopulationError>)
    requires Inhabits(w, p.members)
    ensures r.Err? <==> c.TargetFitnessStop? && p.members == []
    ensures c.MaxGenerationStop? ==> r == Ok(ga.maxGeneration == Bounded(p.generation))
    ensures c.TargetFitnessStop? && r.Ok? ==> r.value == Reaches(w.objects[p.members[0]].fitness, ga.targetFitness)
  {
    match c
    case MaxGenerationStop => Ok(ga.maxGeneration == Bounded(p.generation))
    case TargetFitnessStop =>
      var best :- BestIndividual(w, p.members);
      Ok(Reaches(best.fitness, ga.targetFitness))
    case CustomStop(holds) => Ok(holds(View(w, p)))
  }

  /** `any(cond(population) for cond in conditions)`: evaluated left to right,
      stopping at the first condition that holds or raises. */
  function AnyFires(ga: GeneticAlgorithm, w: World, p: Population, conds: seq<StopCondition>)
    : (r: Result<bool, PopulationError>)
    requires Inhabits(w, p.members)
    ensures r.Err? ==> p.members == [] && TargetFitnessStop in conds
    decreases |conds|
  {
    if conds == [] then Ok(false)
    else
      var first :- Fires(ga, w, p, conds[0]);
      if first then Ok(true) else AnyFires(ga, w, p, conds[1..])
  }

  /** `_has_reached_stop_condition()`. */
  function HasReachedStopCondition(ga: GeneticAlgorithm, w: World, p: Population): (r: Result<bool, PopulationError>)
    requires Inhabits(w, p.members)
    ensures WellFormed(ga) && ga.maxGeneration == Bounded(p.generation) ==> r == Ok(true)
    ensures WellFormed(ga) && r == Ok(false) ==> ga.maxGeneration != Bounded(p.generation)
    ensures WellFormed(ga) && r == Ok(true) ==>
              ga.maxGeneration == Bounded(p.generation) || AnyFires(ga, w, p, ga.stopConditions[1..]) == Ok(true)
    ensures r.Err? ==> p.members == []
  {
    assert WellFormed(ga) ==> ga.stopConditions == [ga.stopConditions[0]] + ga.stopConditions[1..];
    AnyFires(ga, w, p, ga.stopConditions)
  }

  /** The check is a disjunction: it answers `true` exactly when some
      condition holds and none before it raised, `false` exactly when every
      condition evaluates to `false`. */
  lemma {:induction false} AnyFiresIsDisjunction(ga: GeneticAlgorithm, w: World, p: Population, conds: seq<StopCondition>)
    requires Inhabits(w, p.members)
    ensures AnyFires(ga, w, p, conds) == Ok(true) <==>
              exists i :: 0 <= i < |conds| && Fires(ga, w, p, conds[i]) == Ok(true)
                          && forall j :: 0 <= j < i ==> Fires(ga, w, p, conds[j]) == Ok(false)
    ensures AnyFires(ga, w, p, conds) == Ok(false) <==>
              forall i :: 0 <= i < |conds| ==> Fires(ga, w, p, conds[i]) == Ok(false)
    decreases |conds|
  {
    if conds != [] {
      AnyFiresIsDisjunction(ga, w, p, conds[1..]);
      var r := AnyFires(ga, w, p, conds);
      if Fires(ga, w, p, conds[0]) == Ok(false) {
        if AnyFires(ga, w, p, conds[1..]) == Ok(true) {
          var i :| 0 <= i < |conds[1..]| && Fires(ga, w, p, conds[1..][i]) == Ok(true)
                   && forall j :: 0 <= j < i ==> Fires(ga, w, p, conds[1..][j]) == Ok(false);
          assert Fires(ga, w, p, conds[i + 1]) == Ok(true);
          forall j | 0 <= j < i + 1 ensures Fires(ga, w, p, conds[j]) == Ok(false) {
            if j > 0 { assert conds[j] == conds[1..][j - 1]; }
          }
        }
        if exists i :: 0 <= i < |conds| && Fires(ga, w, p, conds[i]) == Ok(true)
                       && forall j :: 0 <= j < i ==> Fires(ga, w, p, conds[j]) == Ok(false) {
          var i :| 0 <= i < |conds| && Fires(ga, w, p, conds[i]) == Ok(true)
                   && forall j :: 0 <= j < i ==> Fires(ga, w, p, conds[j]) == Ok(false);
          assert i > 0;
          assert conds[1..][i - 1] == conds[i];
          forall j | 0 <= j < i - 1 ensures Fires(ga, w, p, conds[1..][j]) == Ok(false) {
            assert conds[1..][j] == conds[j + 1];
          }
        }
        if forall i :: 0 <= i < |conds| ==> Fires(ga, w, p, conds[i]) == Ok(false) {
          forall i | 0 <= i < |conds[1..]| ensures Fires(ga, w, p, conds[1..][i]) == Ok(false) {
            assert conds[1..][i] == conds[i + 1];
          }
        }
        if AnyFires(ga, w, p, conds[1..]) == Ok(false) {
          forall i | 0 <= i < |conds| ensures Fires(ga, w, p, conds[i]) == Ok(false) {
            if i > 0 { assert conds[i] == conds[1..][i - 1]; }
          }
        }
      } else if Fires(ga, w, p, conds[0]) == Ok(true) {
        assert Fires(ga, w, p, conds[0]) == Ok(true);
      }
    }
  }

  /** Registering one more condition never turns a `true` check into `false`
      or into an exception, and turns a `false` check into that condition's answer. */
  lemma {:induction false} AppendedConditionIsMonotone(ga: GeneticAlgorithm, w: World, p: Population,
                                                      conds: seq<StopCondition>, c: StopCondition)
    requires Inhabits(w, p.members)
    ensures AnyFires(ga, w, p, conds) == Ok(true) ==> AnyFires(ga, w, p, conds + [c]) == Ok(true)
    ensures AnyFires(ga, w, p, conds) == Ok(false) ==> AnyFires(ga, w, p, conds + [c]) == Fires(ga, w, p, c)
    decreases |conds|
  {
    if conds == [] {
      assert [c][1..] == [];
    } else {
      assert (conds + [c])[0] == conds[0];
      assert (conds + [c])[1..] == conds[1..] + [c];
      AppendedConditionIsMonotone(ga, w, p, conds[1..], c);
    }
  }

  /** Adding a custom predicate to an engine never turns a true check false. */
  lemma CustomStopConditionIsMonotone(ga: GeneticAlgorithm, w: World, pop: Population, p: PopulationView -> bool)
    requires Inhabits(w, pop.members)
    ensures HasReachedStopCondition(ga, w, pop) == Ok(true) ==>
              HasReachedStopCondition(AddCustomStopCondition(ga, p), w, pop) == Ok(true)
    ensures HasReachedStopCondition(ga, w, pop) == Ok(false) ==>
              HasReachedStopCondition(AddCustomStopCondition(ga, p), w, pop) == Ok(p(View(w, pop)))
  {
    var ga' := AddCustomStopCondition(ga, p);
    AppendedConditionIsMonotone(ga, w, pop, ga.stopConditions, CustomStop(p));
    AnyFiresReadsOnlyLimits(ga, ga', w, pop, ga'.stopConditions);
  }

  /** Conditions read only the generation limit and the target of the engine. */
  lemma {:induction false} AnyFiresReadsOnlyLimits(ga: GeneticAlgorithm, ga': GeneticAlgorithm, w: World,
                                                  p: Population, conds: seq<StopCondition>)
    requires Inhabits(w, p.members)
    requires ga.maxGeneration == ga'.maxGeneration && ga.targetFitness == ga'.targetFitness
    ensures AnyFires(ga, w, p, conds) == AnyFires(ga', w, p, conds)
    decreases |conds|
  {
    if conds != [] {
      AnyFiresReadsOnlyLimits(ga, ga', w, p, conds[1..]);
    }
  }
}

=== FILE: evolution.dfy ===
/**
 * One generational step of `GeneticAlgorithm` in `netgene/ga.py`
 * (`_evolve_generation`, `_evolution_task`, `_parents_supplier`,
 * `_crossover`, `_mutate`) and the `evolve` loop.
 *
 * Everything random or user-supplied is an oracle: the parent selector, the
 * `random.random()` draw of each reproduction attempt, the crossover
 * operator's `recombine`, the mutator and the fitness callback. Thread pools
 * are not modelled: reproduction, mutation and evaluation run in stream order.
 */
module Evolution {
  import opened Wrappers
  import opened PyList
  import opened Chromosomes
  import opened Configuration
  import opened Populations
  import opened Engine

  /** The behaviour of the collaborators the engine calls. */
  datatype Oracles = Oracles(
    /** `select_parents` on the current population at attempt `t`; `None`
        when it raises `SelectionException`. */
    select: (Selector, PopulationView, nat) -> Option<(Individual, Individual)>,
    /** `random.random()` in `_crossover`, per generation and attempt. */
    draw: (int, nat) -> real,
    /** `recombine(a, b)`; `None` when it raises `CrossoverException`.
        Its offspring are new objects. */
    recombine: (CrossoverOperator, Individual, Individual, int, nat) -> Option<seq<Individual>>,
    /** `has_single_offspring()`. */
    singleOffspring: CrossoverOperator -> bool,
    /** `mutate(individual)` on the k-th individual of the stream, a failed
        mutation included (it may leave the individual as it was). */
    mutate: (Mutator, Individual, int, nat) -> Individual,
    /** The user's fitness function, which updates the individual it is given. */
    fitness: Individual -> Individual)

  /** `limit`: the number of places reproduction may fill. It is negative
      exactly when elitism keeps more places than the population has. */
  function Limit(ga: GeneticAlgorithm, size: nat): (r: int)
    ensures r < 0 <==> ga.elitism && ga.elitismSize > size
    ensures !ga.elitism || ga.elitismSize >= 0 ==> r <= size
    ensures !ga.elitism ==> r == size
  {
    if ga.elitism then size - ga.elitismSize else size
  }

  /** `population[:elitism_size]` when elitism is on, else nothing: a prefix
      of the population which, with an elitism size within the population,
      leaves exactly `limit` places. */
  function Elites(ga: GeneticAlgorithm, members: seq<Ref>): (e: seq<Ref>)
    ensures |e| <= |members| && e == members[..|e|]
    ensures !ga.elitism ==> e == []
    ensures ga.elitism && 0 <= ga.elitismSize <= |members| ==> |e| + Limit(ga, |members|) == |members|
    ensures ga.elitism && ga.elitismSize > |members| ==> e == members
  {
    if ga.elitism then Take(members, ga.elitismSize) else []
  }

  /** `_crossover(couple)` at attempt `t` of generation `gen`. */
  function Crossover(ga: GeneticAlgorithm, o: Oracles, a: Individual, b: Individual, gen: int, t: nat)
    : (kids: seq<Individual>)
    ensures ga.crossoverRate > o.draw(gen, t) && o.recombine(ga.crossover, a, b, gen, t).None? ==> kids == []
    ensures ga.crossoverRate > o.draw(gen, t) && o.recombine(ga.crossover, a, b, gen, t).Some? ==>
              kids == o.recombine(ga.crossover, a, b, gen, t).value
    ensures ga.crossoverRate <= o.draw(gen, t) ==>
              && |kids| == (if o.singleOffspring(ga.crossover) then 1 else 2)
              && kids[0].chromosome.genes == a.chromosome.genes && kids[0].chromosome.kind == a.chromosome.kind
              && (|kids| == 2 ==> kids[1].chromosome.genes == b.chromosome.genes
                                  && kids[1].chromosome.kind == b.chromosome.kind)
              && forall i :: 0 <= i < |kids| ==> kids[i].fitness.Unset?
  {
    if ga.crossoverRate > o.draw(gen, t) then
      match o.recombine(ga.crossover, a, b, gen, t)
      case Some(offspring) => offspring
      case None => []
    else
      [NewIndividual(Copy(a.chromosome))]
      + (if !o.singleOffspring(ga.crossover) then [NewIndividual(Copy(b.chromosome))] else [])
  }

  /** The reproduction loop of `_evolution_task` from attempt `t` on, with the
      stream `acc` collected so far: at most `limit` attempts, each one
      selecting a couple and appending as many children as still fit. */
  function Breed(ga: GeneticAlgorithm, o: Oracles, view: PopulationView, limit: int, t: nat,
                 acc: seq<Individual>): (r: seq<Individual>)
    requires |acc| <= RangeLength(limit)
    ensures |acc| <= |r| <= RangeLength(limit)
    ensures r[..|acc|] == acc
    decreases RangeLength(limit - t)
  {
    if t >= limit || |acc| >= limit then acc
    else
      match o.select(ga.selector, view, t)
      case None => Breed(ga, o, view, limit, t + 1, acc)
      case Some((a, b)) =>
        var kids := Crossover(ga, o, a, b, view.generation, t);
        var room := limit - |acc|;
        var taken := if |kids| <= room then kids else kids[..room];
        Breed(ga, o, view, limit, t + 1, acc + taken)
  }

  /** The stream before mutation: bred children as new objects, or with
      `skip_crossover` the first `limit` members themselves. */
  function Stream(ga: GeneticAlgorithm, o: Oracles, w: World, p: Population): (r: (World, seq<Ref>))
    requires ValidWorld(w) && Inhabits(w, p.members)
    ensures ValidWorld(r.0) && Inhabits(r.0, p.members) && Inhabits(r.0, r.1)
    ensures ga.skipCrossover ==> r == (w, Take(p.members, Limit(ga, |p.members|)))
    ensures !ga.skipCrossover ==> |r.1| <= RangeLength(Limit(ga, |p.members|))
    ensures !ga.skipCrossover ==> NoAliases(r.1) && forall i :: 0 <= i < |r.1| ==> r.1[i] !in w.objects
    ensures !ga.skipCrossover ==>
              var bred := Breed(ga, o, View(w, p), Limit(ga, |p.members|), 0, []);
              |r.1| == |bred| && forall i :: 0 <= i < |r.1| ==> r.0.objects[r.1[i]] == bred[i]
    ensures forall x :: x in w.objects ==> x in r.0.objects && r.0.objects[x] == w.objects[x]
  {
    var limit := Limit(ga, |p.members|);
    if ga.skipCrossover then
      (w, Take(p.members, limit))
    else
      var (w1, born) := Allocate(w, Breed(ga, o, View(w, p), limit, 0, []));
      assert forall i :: 0 <= i < |born| ==> born[i] !in w.objects;
      (w1, born)
  }

  /** `_evolution_task(limit, new_population)`: the world after reproduction
      and mutation, the elites and the stream. The next population is the
      elites followed by the stream. */
  function Reproduce(ga: GeneticAlgorithm, o: Oracles, w: World, p: Population)
    : (r: (World, seq<Ref>, seq<Ref>))
    requires ValidWorld(w) && Inhabits(w, p.members)
    ensures ValidWorld(r.0) && Inhabits(r.0, r.1 + r.2)
    ensures r.1 == Elites(ga, p.members) && r.2 == Stream(ga, o, w, p).1
    ensures var s := Stream(ga, o, w, p).0;
            && r.0.next == s.next && r.0.objects.Keys == s.objects.Keys
            && (forall x :: x in s.objects && x !in r.2 ==> r.0.objects[x] == s.objects[x])
            && (ga.skipMutation ==> r.0 == s)
    ensures !ga.skipMutation && NoAliases(r.2) ==>
              var s := Stream(ga, o, w, p).0;
              forall k :: 0 <= k < |r.2| ==> r.0.objects[r.2[k]] == o.mutate(ga.mutator, s.objects[r.2[k]], p.generation, k)
  {
    var elites := Elites(ga, p.members);
    var (w1, stream) := Stream(ga, o, w, p);
    var mutation := (ind: Individual, k: nat) => o.mutate(ga.mutator, ind, p.generation, k);
    var w2 := if ga.skipMutation then w1 else UpdateEach(w1, stream, mutation);
    assert Inhabits(w2, elites + stream);
    if !ga.skipMutation && NoAliases(stream) then
      UpdateEachOnce(w1, stream, mutation);
      (w2, elites, stream)
    else
      (w2, elites, stream)
  }

  /** With crossover and a population holding no object twice, the next
      population holds no object twice either: the elites are old objects and
      the stream is new ones. */
  lemma ReproduceWithCrossoverHasNoAliases(ga: GeneticAlgorithm, o: Oracles, w: World, p: Population)
    requires ValidWorld(w) && Inhabits(w, p.members) && NoAliases(p.members) && !ga.skipCrossover
    ensures var next := Reproduce(ga, o, w, p);
            NoAliases(next.1 + next.2)
  {
    var next := Reproduce(ga, o, w, p);
    var all := next.1 + next.2;
    forall i, j | 0 <= i < |all| && 0 <= j < |all| && i != j
      ensures all[i] != all[j]
    {
      if i < |next.1| && j < |next.1| {
        assert all[i] == p.members[i] && all[j] == p.members[j];
      } else if i < |next.1| {
        assert all[i] in w.objects && all[j] == next.2[j - |next.1|];
      } else if j < |next.1| {
        assert all[j] in w.objects && all[i] == next.2[i - |next.1|];
      } else {
        assert all[i] == next.2[i - |next.1|] && all[j] == next.2[j - |next.1|];
      }
    }
  }

  /** The state `_evolve_generation()` leaves behind before it builds the
      generation result: reproduce, evaluate every member of the new
      population, sort it, and count one more generation. What the step does
      to the objects is stated by `AdvanceSorts`, `AdvanceFrame` and
      `AdvanceEvaluatesOnce`. */
  function Advance(ga: GeneticAlgorithm, o: Oracles, w: World, p: Population): (r: (World, Population))
    requires ValidWorld(w) && Inhabits(w, p.members)
    ensures ValidWorld(r.0) && Inhabits(r.0, r.1.members)
    ensures r.1.generation == p.generation + 1
    ensures var next := Reproduce(ga, o, w, p);
            multiset(r.1.members) == multiset(next.1 + next.2)
  {
    var (w2, elites, stream) := Reproduce(ga, o, w, p);
    var members := elites + stream;
    var w3 := Evaluate(o, w2, members);
    var sorted := SortByFitness(w3, members);
    SortByFitnessPermutes(w3, members);
    assert forall i :: 0 <= i < |sorted| ==> sorted[i] in multiset(members);
    (w3, Population(sorted, p.generation + 1))
  }

  /** One step leaves the new population sorted by descending fitness. */
  lemma AdvanceSorts(ga: GeneticAlgorithm, o: Oracles, w: World, p: Population)
    requires ValidWorld(w) && Inhabits(w, p.members)
    ensures var r := Advance(ga, o, w, p);
            SortedDescending(r.0, r.1.members)
  {
  }

  /** One step keeps the references and the allocation counter of the
      reproduced world and changes no object outside the new population. */
  lemma AdvanceFrame(ga: GeneticAlgorithm, o: Oracles, w: World, p: Population)
    requires ValidWorld(w) && Inhabits(w, p.members)
    ensures var r := Advance(ga, o, w, p);
            var next := Reproduce(ga, o, w, p);
            && r.0.next == next.0.next && r.0.objects.Keys == next.0.objects.Keys
            && forall x :: x in next.0.objects && x !in next.1 + next.2 ==> r.0.objects[x] == next.0.objects[x]
  {
  }

  /** Without repeated objects, one step evaluates every member of the new
      population exactly once, on its reproduced state. */
  lemma AdvanceEvaluatesOnce(ga: GeneticAlgorithm, o: Oracles, w: World, p: Population)
    requires ValidWorld(w) && Inhabits(w, p.members)
    ensures NoAliases(Reproduce(ga, o, w, p).1 + Reproduce(ga, o, w, p).2) ==>
              var r := Advance(ga, o, w, p);
              var before := Reproduce(ga, o, w, p).0;
              forall i :: 0 <= i < |r.1.members| ==> r.0.objects[r.1.members[i]] == o.fitness(before.objects[r.1.members[i]])
  {
    var (w2, elites, stream) := Reproduce(ga, o, w, p);
    var members := elites + stream;
    if NoAliases(members) {
      var sorted := SortByFitness(Evaluate(o, w2, members), members);
      SortByFitnessPermutes(Evaluate(o, w2, members), members);
      EvaluatedReordering(o, w2, members, sorted);
    }
  }

  /** A reordering of evaluated members that repeat no object holds each
      of them evaluated once. */
  lemma EvaluatedReordering(o: Oracles, w: World, members: seq<Ref>, sorted: seq<Ref>)
    requires Inhabits(w, members) && NoAliases(members)
    requires multiset(sorted) == multiset(members)
    ensures forall i :: 0 <= i < |sorted| ==>
              sorted[i] in w.objects && Evaluate(o, w, members).objects[sorted[i]] == o.fitness(w.objects[sorted[i]])
  {
    var w' := Evaluate(o, w, members);
    forall i | 0 <= i < |sorted|
      ensures sorted[i] in w.objects && w'.objects[sorted[i]] == o.fitness(w.objects[sorted[i]])
    {
      assert sorted[i] in multiset(members);
      var k :| 0 <= k < |members| && members[k] == sorted[i];
    }
  }

  /** `_evolve_generation()`: the step of `Advance`, after which building the
      generation result asks for the best individual, which fails on an
      empty population. On failure the engine is left in the state `Advance`
      describes. */
  function EvolveGeneration(ga: GeneticAlgorithm, o: Oracles, w: World, p: Population)
    : (r: Result<(World, Population), PopulationError>)
    requires ValidWorld(w) && Inhabits(w, p.members)
    ensures var next := Reproduce(ga, o, w, p);
            r.Err? <==> next.1 + next.2 == []
    ensures r.Ok? ==> r.value == Advance(ga, o, w, p)
    ensures r.Err? ==> Advance(ga, o, w, p).1.members == []
    ensures r.Ok? ==> ValidWorld(r.value.0) && Inhabits(r.value.0, r.value.1.members)
    ensures r.Ok? ==> r.value.1.generation == p.generation + 1
    ensures r.Ok? ==> var next := Reproduce(ga, o, w, p);
                      multiset(r.value.1.members) == multiset(next.1 + next.2)
    ensures r.Ok? ==> SortedDescending(r.value.0, r.value.1.members)
    ensures r.Ok? ==> var next := Reproduce(ga, o, w, p);
                      && r.value.0.next == next.0.next && r.value.0.objects.Keys == next.0.objects.Keys
                      && forall x :: x in next.0.objects && x !in next.1 + next.2 ==>
                                       r.value.0.objects[x] == next.0.objects[x]
    ensures r.Ok? && NoAliases(Reproduce(ga, o, w, p).1 + Reproduce(ga, o, w, p).2) ==>
              var before := Reproduce(ga, o, w, p).0;
              forall i :: 0 <= i < |r.value.1.members| ==>
                r.value.0.objects[r.value.1.members[i]] == o.fitness(before.objects[r.value.1.members[i]])
  {
    var after := Advance(ga, o, w, p);
    var next := Reproduce(ga, o, w, p);
    AdvanceSorts(ga, o, w, p);
    AdvanceFrame(ga, o, w, p);
    AdvanceEvaluatesOnce(ga, o, w, p);
    assert |after.1.members| == |multiset(next.1 + next.2)| == |next.1 + next.2|;
    var _ :- BestIndividual(after.0, after.1.members);
    Ok(after)
  }

  /** The evaluation pass of `_evolve_generation`: the fitness function runs
      on every member in order; without repeated members each one is
      evaluated exactly once, and no other object changes. */
  function Evaluate(o: Oracles, w: World, members: seq<Ref>): (w': World)
    requires Inhabits(w, members)
    ensures w'.next == w.next && w'.objects.Keys == w.objects.Keys
    ensures forall x :: x in w.objects && x !in members ==> w'.objects[x] == w.objects[x]
    ensures NoAliases(members) ==>
              forall k :: 0 <= k < |members| ==> w'.objects[members[k]] == o.fitness(w.objects[members[k]])
  {
    var evaluation := (ind: Individual, k: nat) => o.fitness(ind);
    if NoAliases(members) then
      UpdateEachOnce(w, members, evaluation);
      UpdateEach(w, members, evaluation)
    else
      UpdateEach(w, members, evaluation)
  }

  // ---------------------------------------------------------------------------
  // Properties of one step
  // ---------------------------------------------------------------------------

  /** The size of the next population: elites plus a stream of at most
      `limit`; it never exceeds the current size while the elitism size lies
      within the population. */
  lemma NextPopulationSize(ga: GeneticAlgorithm, o: Oracles, w: World, p: Population)
    requires ValidWorld(w) && Inhabits(w, p.members)
    ensures var next := Reproduce(ga, o, w, p);
            && |next.1| == (if ga.elitism then BoundIndex(|p.members|, ga.elitismSize) else 0)
            && (ga.skipCrossover ==> |next.2| == BoundIndex(|p.members|, Limit(ga, |p.members|)))
            && (!ga.skipCrossover ==> |next.2| <= RangeLength(Limit(ga, |p.members|)))
            && (!ga.elitism || 0 <= ga.elitismSize <= |p.members| ==> |next.1 + next.2| <= |p.members|)
  {
  }

  /** With `skip_crossover` the stream is the first `limit` members in order,
      and the size is kept exactly while the elitism size lies within the population. */
  lemma SkipCrossoverKeepsSize(ga: GeneticAlgorithm, o: Oracles, w: World, p: Population)
    requires ValidWorld(w) && Inhabits(w, p.members) && ga.skipCrossover
    requires !ga.elitism || 0 <= ga.elitismSize <= |p.members|
    ensures var next := Reproduce(ga, o, w, p);
            && next.2 == p.members[..Limit(ga, |p.members|)]
            && |next.1 + next.2| == |p.members|
  {
  }

  /** With `skip_crossover` and elitism the stream starts with the elite
      objects themselves whenever both are non-empty: for an elitism size `e`
      with `-n < e < 0`, `0 < e < n` or `n < e < 2n`, where `n` is the
      population size (a negative `e` is refused by the configuration and the
      setter, but not by the constructor). The
      mutation of the stream then reaches the first elite, and it appears
      twice in the next population. */
  lemma SkipCrossoverMutatesElites(ga: GeneticAlgorithm, o: Oracles, w: World, p: Population)
    requires ValidWorld(w) && Inhabits(w, p.members) && NoAliases(p.members)
    requires ga.skipCrossover && !ga.skipMutation && ga.elitism
    requires || -|p.members| < ga.elitismSize < 0
             || 0 < ga.elitismSize < |p.members|
             || |p.members| < ga.elitismSize < 2 * |p.members|
    ensures var next := Reproduce(ga, o, w, p);
            && next.1[0] == p.members[0] && next.2[0] == p.members[0]
            && (next.1 + next.2)[|next.1|] == (next.1 + next.2)[0]
            && next.0.objects[p.members[0]] == o.mutate(ga.mutator, w.objects[p.members[0]], p.generation, 0)
  {
    var limit := Limit(ga, |p.members|);
    var stream := Take(p.members, limit);
    assert NoAliases(stream);
    UpdateEachOnce(w, stream, (ind: Individual, k: nat) => o.mutate(ga.mutator, ind, p.generation, k));
  }

  /** Elitism is checked only for sign. An elitism size `e` above the
      population size `n` makes `limit` negative, and `population[:limit]`
      then counts from the end: the elites are the whole population and the
      stream repeats its first `2n - e` members, so the next population has
      `3n - e` members while `e < 2n`, and `n` from `e = 2n` on. */
  lemma OversizedElitismGrowsPopulation(ga: GeneticAlgorithm, o: Oracles, w: World, p: Population)
    requires ValidWorld(w) && Inhabits(w, p.members)
    requires ga.skipCrossover && ga.elitism && ga.elitismSize > |p.members|
    ensures var next := Reproduce(ga, o, w, p);
            var n := |p.members|;
            && next.1 == p.members
            && next.2 == (if ga.elitismSize < 2 * n then p.members[..2 * n - ga.elitismSize] else [])
            && |next.1 + next.2| == (if ga.elitismSize < 2 * n then 3 * n - ga.elitismSize else n)
  {
  }

  /** The constructor stores the elitism size unchecked. A negative size
      `e` makes `limit` exceed the population size `n`, so with
      `skip_crossover` the stream is the whole population, while
      `population[:e]` keeps the first `n + e` members, or none from
      `e = -n` down: the next population has `2n + e` members for `-n < e`,
      and `n` otherwise. */
  lemma NegativeElitismSizeGrowsPopulation(ga: GeneticAlgorithm, o: Oracles, w: World, p: Population)
    requires ValidWorld(w) && Inhabits(w, p.members)
    requires ga.skipCrossover && ga.elitism && ga.elitismSize < 0
    ensures var next := Reproduce(ga, o, w, p);
            var n := |p.members|;
            && next.1 == (if -n < ga.elitismSize then p.members[..n + ga.elitismSize] else [])
            && next.2 == p.members
            && |next.1 + next.2| == (if -n < ga.elitismSize then 2 * n + ga.elitismSize else n)
  {
  }

  /** Because each generation ends sorted, the target condition, which looks
      only at the first member, holds exactly when some member reaches the target. */
  lemma TargetStopSeesWholePopulation(ga: GeneticAlgorithm, w: World, p: Population)
    requires Inhabits(w, p.members) && SortedDescending(w, p.members) && p.members != []
    ensures Fires(ga, w, p, TargetFitnessStop) == Ok(true) <==>
              exists i :: 0 <= i < |p.members| && Reaches(w.objects[p.members[i]].fitness, ga.targetFitness)
  {
    if exists i :: 0 <= i < |p.members| && Reaches(w.objects[p.members[i]].fitness, ga.targetFitness) {
      var i :| 0 <= i < |p.members| && Reaches(w.objects[p.members[i]].fitness, ga.targetFitness);
      if i > 0 {
        assert AtLeast(Key(w, p.members[0]), Key(w, p.members[i]));
      }
    }
  }

  /** When every attempt selects a couple and produces at least one child,
      the stream is filled up to `limit`. */
  lemma {:induction false} BreedFillsLimit(ga: GeneticAlgorithm, o: Oracles, view: PopulationView, limit: int,
                                           t: nat, acc: seq<Individual>)
    requires |acc| <= RangeLength(limit) && |acc| >= t
    requires forall u: nat :: t <= u < limit ==> o.select(ga.selector, view, u).Some?
    requires forall u: nat :: t <= u < limit && o.select(ga.selector, view, u).Some? ==>
               |Crossover(ga, o, o.select(ga.selector, view, u).value.0, o.select(ga.selector, view, u).value.1,
                          view.generation, u)| >= 1
    ensures |Breed(ga, o, view, limit, t, acc)| == RangeLength(limit)
    decreases RangeLength(limit - t)
  {
    if t >= limit || |acc| >= limit {
    } else {
      var (a, b) := o.select(ga.selector, view, t).value;
      var kids := Crossover(ga, o, a, b, view.generation, t);
      var room := limit - |acc|;
      var taken := if |kids| <= room then kids else kids[..room];
      BreedFillsLimit(ga, o, view, limit, t + 1, acc + taken);
    }
  }

  /** A failed selection contributes nothing: if every selection fails, the
      stream stays as it is. */
  lemma {:induction false} FailedSelectionsAddNothing(ga: GeneticAlgorithm, o: Oracles, view: PopulationView,
                                                      limit: int, t: nat, acc: seq<Individual>)
    requires |acc| <= RangeLength(limit)
    requires forall u: nat :: t <= u < limit ==> o.select(ga.selector, view, u).None?
    ensures Breed(ga, o, view, limit, t, acc) == acc
    decreases RangeLength(limit - t)
  {
    if !(t >= limit || |acc| >= limit) {
      FailedSelectionsAddNothing(ga, o, view, limit, t + 1, acc);
    }
  }

  // ---------------------------------------------------------------------------
  // evolve
  // ---------------------------------------------------------------------------

  /** An engine state whose population lives in its world. */
  type State = s: (World, Population) | ValidWorld(s.0) && Inhabits(s.0, s.1.members)
    witness (World(map[], 0), Population([], 0))

  /** One step of the engine, as a function on states. */
  function Step(ga: GeneticAlgorithm, o: Oracles): State -> State {
    (s: State) => Advance(ga, o, s.0, s.1)
  }

  /** The value at `i` in `t` is `f` of the value before it. */
  predicate Follows<S(==)>(f: S -> S, t: seq<S>, i: nat)
    requires 0 < i < |t|
  {
    t[i] == f(t[i - 1])
  }

  /** `t` lists successive values under `f`. */
  predicate IsTrace<S(==)>(f: S -> S, t: seq<S>) {
    forall i :: 0 < i < |t| ==> Follows(f, t, i)
  }

  /** A trace extended by `f` of its last value is a trace. */
  lemma TraceExtends<S>(f: S -> S, t: seq<S>, x: S)
    requires IsTrace(f, t) && |t| > 0 && x == f(t[|t| - 1])
    ensures IsTrace(f, t + [x])
  {
    var u := t + [x];
    forall i | 0 < i < |u|
      ensures Follows(f, u, i)
    {
      if i < |t| {
        assert Follows(f, t, i);
        assert u[i] == t[i] && u[i - 1] == t[i - 1];
      }
    }
  }

  /** The stop check of the state at `j` in `t` answers `false`. */
  predicate CheckedFalse(ga: GeneticAlgorithm, t: seq<State>, j: nat)
    requires j < |t|
  {
    HasReachedStopCondition(ga, t[j].0, t[j].1) == Ok(false)
  }

  /** The state at `j` in `t` has members. */
  predicate Populated(t: seq<State>, j: nat)
    requires j < |t|
  {
    t[j].1.members != []
  }

  /** `t` is a run ending in `(w, p)` whose every earlier stop check answered
      `false` and whose every state strictly between the first and the last
      has members. */
  predicate Visited(ga: GeneticAlgorithm, o: Oracles, t: seq<State>, w: World, p: Population) {
    && ValidWorld(w) && Inhabits(w, p.members)
    && |t| > 0 && IsTrace(Step(ga, o), t) && t[|t| - 1] == (w, p)
    && (forall j :: 0 <= j < |t| - 1 ==> CheckedFalse(ga, t, j))
    && (forall j :: 0 < j < |t| - 1 ==> Populated(t, j))
  }

  /** Extending a visited run by one step after a `false` stop check on its
      last, non-empty (past the first) state keeps it visited. */
  lemma VisitedExtends(ga: GeneticAlgorithm, o: Oracles, t: seq<State>, w: World, p: Population, x: State)
    requires Visited(ga, o, t, w, p)
    requires |t| > 1 ==> p.members != []
    requires HasReachedStopCondition(ga, w, p) == Ok(false)
    requires IsTrace(Step(ga, o), t + [x])
    ensures Visited(ga, o, t + [x], x.0, x.1)
  {
    var u := t + [x];
    forall j | 0 <= j < |u| - 1
      ensures CheckedFalse(ga, u, j)
    {
      assert u[j] == t[j];
      if j < |t| - 1 { assert CheckedFalse(ga, t, j); }
    }
    forall j | 0 < j < |u| - 1
      ensures Populated(u, j)
    {
      assert u[j] == t[j];
      if j < |t| - 1 { assert Populated(t, j); }
    }
  }

  /** The loop body of `evolve` after a false stop check on the last state of
      the run `t`: `_evolve_generation()`, whose failure leaves the new, empty
      population installed, followed on success by the stop check of the next
      round. */
  method EvolveOnce(ga: GeneticAlgorithm, o: Oracles, ghost t: seq<State>, w: World, p: Population)
    returns (r: Result<(World, Population), PopulationError>, stop: Result<bool, PopulationError>,
             w': World, p': Population, ghost t': seq<State>)
    requires Visited(ga, o, t, w, p)
    requires |t| > 1 ==> p.members != []
    requires HasReachedStopCondition(ga, w, p) == Ok(false)
    ensures Visited(ga, o, t', w', p')
    ensures |t'| == |t| + 1 && t'[0] == t[0]
    ensures p'.generation == p.generation + 1
    ensures r.Err? <==> p'.members == []
    ensures r.Ok? ==> r.value == (w', p') && stop == HasReachedStopCondition(ga, w', p')
  {
    var after: State := Advance(ga, o, w, p);
    assert Step(ga, o)(t[|t| - 1]) == after;
    TraceExtends<State>(Step(ga, o), t, after);
    VisitedExtends(ga, o, t, w, p, after);
    t' := t + [after];
    r := EvolveGeneration(ga, o, w, p);
    w', p' := after.0, after.1;
    stop := Ok(false);
    if r.Ok? {
      stop := HasReachedStopCondition(ga, w', p');
    }
  }

  /** The loop of `evolve`: check the stop conditions and evolve one
      generation while none holds and no step has failed. It stops at
      `(lw, lp)`, the last state of the run `t` from `(w, p)`. */
  method EvolveLoop(ga: GeneticAlgorithm, o: Oracles, w: World, p: Population)
    returns (step: Result<(World, Population), PopulationError>, stop: Result<bool, PopulationError>,
             lw: World, lp: Population, ghost t: seq<State>)
    requires WellFormed(ga) && ga.maxGeneration.Bounded? && p.generation <= ga.maxGeneration.n
    requires ValidWorld(w) && Inhabits(w, p.members)
    ensures Visited(ga, o, t, lw, lp) && t[0] == (w, p)
    ensures p.generation <= lp.generation <= ga.maxGeneration.n && |t| == lp.generation - p.generation + 1
    ensures step.Ok? ==> stop == HasReachedStopCondition(ga, lw, lp) && (|t| > 1 ==> lp.members != [])
    ensures step.Err? ==> |t| > 1 && lp.members == []
    ensures !(step.Ok? && stop.Ok? && !stop.value)
  {
    var max := ga.maxGeneration.n;
    lw, lp := w, p;
    t := [(w, p)];
    stop := HasReachedStopCondition(ga, lw, lp);
    step := Ok((lw, lp));
    while step.Ok? && stop.Ok? && !stop.value
      invariant Visited(ga, o, t, lw, lp) && t[0] == (w, p)
      invariant p.generation <= lp.generation <= max && |t| == lp.generation - p.generation + 1
      invariant step.Ok? ==> stop == HasReachedStopCondition(ga, lw, lp) && (|t| > 1 ==> lp.members != [])
      invariant step.Err? ==> |t| > 1 && lp.members == []
      decreases max - lp.generation
    {
      step, stop, lw, lp, t := EvolveOnce(ga, o, t, lw, lp);
    }
  }

  /** What `evolve` reports once its loop has stopped at the state `(lw, lp)`
      ending the run `t`: the step's error if the last step failed, else the
      stop check's error, else the state itself. */
  lemma EvolveConcludes(ga: GeneticAlgorithm, o: Oracles, t: seq<State>,
                        step: Result<(World, Population), PopulationError>, stop: Result<bool, PopulationError>,
                        r: Result<(World, Population), PopulationError>, lw: World, lp: Population)
    requires WellFormed(ga)
    requires Visited(ga, o, t, lw, lp)
    requires step.Ok? ==> stop == HasReachedStopCondition(ga, lw, lp) && (|t| > 1 ==> lp.members != [])
    requires step.Err? ==> |t| > 1 && lp.members == []
    requires !(step.Ok? && stop.Ok? && !stop.value)
    requires r == if step.Err? then Err(step.error) else if stop.Err? then Err(stop.error) else Ok((lw, lp))
    ensures r.Ok? ==> r.value == (lw, lp)
    ensures r.Ok? ==> HasReachedStopCondition(ga, lw, lp) == Ok(true)
    ensures r.Ok? ==> ga.maxGeneration == Bounded(lp.generation) || AnyFires(ga, lw, lp, ga.stopConditions[1..]) == Ok(true)
    ensures r.Err? ==> lp.members == []
    ensures r.Err? && |t| == 1 ==> HasReachedStopCondition(ga, lw, lp).Err?
    ensures |t| > 1 ==> (r.Err? <==> lp.members == [])
  {
  }

  /** `evolve(population, fitness_function)` for a finite generation limit
      not below the starting generation: check the stop conditions, and evolve
      one generation while none holds. `t` lists the states the engine went
      through, from `(w, p)` to the state `(lw, lp)` it is left in on both
      paths: an exception comes from the stop check on an empty population, or
      from a step whose new population is empty, after that empty population
      has been installed. */
  method Evolve(ga: GeneticAlgorithm, o: Oracles, w: World, p: Population)
    returns (r: Result<(World, Population), PopulationError>, lw: World, lp: Population, ghost t: seq<State>)
    requires WellFormed(ga) && ga.maxGeneration.Bounded? && p.generation <= ga.maxGeneration.n
    requires ValidWorld(w) && Inhabits(w, p.members)
    ensures ValidWorld(lw) && Inhabits(lw, lp.members)
    ensures p.generation <= lp.generation <= ga.maxGeneration.n && |t| == lp.generation - p.generation + 1
    ensures IsTrace(Step(ga, o), t) && t[0] == (w, p) && t[|t| - 1] == (lw, lp)
    ensures forall j :: 0 <= j < |t| - 1 ==> CheckedFalse(ga, t, j)
    ensures forall j :: 0 < j < |t| - 1 ==> Populated(t, j)
    ensures r.Ok? ==> r.value == (lw, lp)
    ensures r.Ok? ==> HasReachedStopCondition(ga, lw, lp) == Ok(true)
    ensures r.Ok? ==> lp.generation == ga.maxGeneration.n || AnyFires(ga, lw, lp, ga.stopConditions[1..]) == Ok(true)
    ensures r.Err? ==> lp.members == []
    ensures r.Err? && |t| == 1 ==> HasReachedStopCondition(ga, lw, lp).Err?
    ensures |t| > 1 ==> (r.Err? <==> lp.members == [])
  {
    var step, stop;
    step, stop, lw, lp, t := EvolveLoop(ga, o, w, p);
    if step.Err? {
      r := Err(step.error);
    } else if stop.Err? {
      r := Err(stop.error);
    } else {
      r := Ok((lw, lp));
    }
    EvolveConcludes(ga, o, t, step, stop, r, lw, lp);
  }
}

=== FILE: population.dfy ===
/**
 * The individuals and populations the engine of `netgene/ga.py` works on.
 * Individuals are objects: the engine lets one object appear in two places
 * of a population and changes objects in place (mutation, fitness
 * evaluation), so they live in a `World` and a population is a sequence of
 * references plus its generation counter.
 *
 * `Population` and `Individual` themselves are defined in `netgene/core.py`,
 * which is not part of this model; what is stated here is what the engine
 * relies on: a freshly built individual has no fitness yet, an unset fitness
 * ranks below every score, `sort()` orders by descending fitness, and the
 * best individual is the first one.
 */
module Populations {
  import opened Wrappers
  import opened Chromosomes

  /** A fitness score; `Unset` ranks below every score and never reaches a
      target. */
  datatype Fitness = Unset | Scored(value: real)

  /** `a` ranks at or above `b`. */
  predicate AtLeast(a: Fitness, b: Fitness) {
    b.Unset? || (a.Scored? && a.value >= b.value)
  }

  lemma AtLeastTotal(a: Fitness, b: Fitness)
    ensures AtLeast(a, b) || AtLeast(b, a)
  {
  }

  lemma AtLeastTransitive(a: Fitness, b: Fitness, c: Fitness)
    requires AtLeast(a, b) && AtLeast(b, c)
    ensures AtLeast(a, c)
  {
  }

  datatype Individual = Individual(chromosome: Chromosome, fitness: Fitness)

  /** `Individual(chromosome)`: not evaluated yet. */
  function NewIndividual(c: Chromosome): (i: Individual)
    ensures i.chromosome == c && i.fitness.Unset?
  {
    Individual(c, Unset)
  }

  type Ref = nat

  /** All individual objects, and the next unused reference. */
  datatype World = World(objects: map<Ref, Individual>, next: Ref)

  predicate ValidWorld(w: World) {
    forall r :: r in w.objects ==> r < w.next
  }

  /** An ordered sequence of individual objects with a generation counter. */
  datatype Population = Population(members: seq<Ref>, generation: int)

  /** Every member of `p` is an object of `w`. */
  predicate Inhabits(w: World, p: seq<Ref>) {
    forall i :: 0 <= i < |p| ==> p[i] in w.objects
  }

  /** No object appears twice. */
  predicate NoAliases(p: seq<Ref>) {
    forall i, j :: 0 <= i < |p| && 0 <= j < |p| && i != j ==> p[i] != p[j]
  }

  /** The individuals of `p`, read through `w`. */
  function Snapshot(w: World, p: seq<Ref>): (s: seq<Individual>)
    requires Inhabits(w, p)
    ensures |s| == |p|
    ensures forall i :: 0 <= i < |p| ==> s[i] == w.objects[p[i]]
  {
    seq(|p|, i requires 0 <= i < |p| => w.objects[p[i]])
  }

  // ---------------------------------------------------------------------------
  // Allocation and in-place updates
  // ---------------------------------------------------------------------------

  /** Create one new object per value, at consecutive fresh references. */
  function Allocate(w: World, vals: seq<Individual>): (r: (World, seq<Ref>))
    requires ValidWorld(w)
    ensures ValidWorld(r.0) && r.0.next == w.next + |vals|
    ensures |r.1| == |vals|
    ensures forall i :: 0 <= i < |vals| ==> r.1[i] == w.next + i
    ensures forall i :: 0 <= i < |vals| ==> r.1[i] in r.0.objects && r.0.objects[r.1[i]] == vals[i]
    ensures forall x :: x in w.objects ==> x in r.0.objects && r.0.objects[x] == w.objects[x]
    ensures forall x :: x in r.0.objects ==> x in w.objects || w.next <= x < w.next + |vals|
    ensures NoAliases(r.1)
    decreases |vals|
  {
    if vals == [] then (w, [])
    else
      var w1 := World(w.objects[w.next := vals[0]], w.next + 1);
      var (w2, rest) := Allocate(w1, vals[1..]);
      (w2, [w.next] + rest)
  }

  /** Visit the members of `p` in order and replace the k-th visited object
      by `f(object, k)`. An object that occurs twice is visited twice. */
  function UpdateEach(w: World, p: seq<Ref>, f: (Individual, nat) -> Individual): (w': World)
    requires Inhabits(w, p)
    ensures w'.next == w.next && w'.objects.Keys == w.objects.Keys
    ensures forall x :: x in w.objects && x !in p ==> w'.objects[x] == w.objects[x]
    decreases |p|
  {
    if p == [] then w
    else
      var w1 := UpdateEach(w, p[..|p| - 1], f);
      var last := p[|p| - 1];
      w1.(objects := w1.objects[last := f(w1.objects[last], |p| - 1)])
  }

  /** Without aliases every member is updated exactly once, with its own position. */
  lemma {:induction false} UpdateEachOnce(w: World, p: seq<Ref>, f: (Individual, nat) -> Individual)
    requires Inhabits(w, p) && NoAliases(p)
    ensures forall k :: 0 <= k < |p| ==> UpdateEach(w, p, f).objects[p[k]] == f(w.objects[p[k]], k)
    decreases |p|
  {
    if p != [] {
      var front := p[..|p| - 1];
      assert NoAliases(front);
      UpdateEachOnce(w, front, f);
      var last := p[|p| - 1];
      assert last !in front;
      var w1 := UpdateEach(w, front, f);
      assert w1.objects[last] == w.objects[last];
      forall k | 0 <= k < |p| - 1
        ensures UpdateEach(w, p, f).objects[p[k]] == f(w.objects[p[k]], k)
      {
        assert p[k] == front[k] && p[k] != last;
      }
    }
  }

  /** An object listed twice is updated twice. */
  lemma UpdateEachTwice(w: World, r: Ref, f: (Individual, nat) -> Individual)
    requires r in w.objects
    ensures UpdateEach(w, [r, r], f).objects[r] == f(f(w.objects[r], 0), 1)
  {
    assert [r, r][..1] == [r];
    assert [r][..0] == [];
  }

  // ---------------------------------------------------------------------------
  // Sorting by descending fitness
  // ---------------------------------------------------------------------------

  /** The fitness of object `r`. */
  function Key(w: World, r: Ref): Fitness {
    if r in w.objects then w.objects[r].fitness else Unset
  }

  /** Fitness never increases along `s`. */
  predicate SortedDescending(w: World, s: seq<Ref>) {
    forall i, j :: 0 <= i < j < |s| ==> AtLeast(Key(w, s[i]), Key(w, s[j]))
  }

  /** Put `x` into the sorted `s` after every member that ranks at or above it. */
  function InsertByFitness(w: World, s: seq<Ref>, x: Ref): (r: seq<Ref>)
    requires SortedDescending(w, s)
    ensures SortedDescending(w, r)
    ensures multiset(r) == multiset(s) + multiset{x}
    ensures |r| == |s| + 1
    decreases |s|
  {
    if s == [] then [x]
    else
      var last := s[|s| - 1];
      if AtLeast(Key(w, x), Key(w, last)) && !AtLeast(Key(w, last), Key(w, x)) then
        var front := s[..|s| - 1];
        assert s == front + [last];
        var mid := InsertByFitness(w, front, x);
        InsertedAboveLast(w, s, x, mid);
        mid + [last]
      else
        AtLeastTotal(Key(w, x), Key(w, last));
        assert forall i :: 0 <= i < |s| ==> AtLeast(Key(w, s[i]), Key(w, x)) by {
          forall i | 0 <= i < |s| ensures AtLeast(Key(w, s[i]), Key(w, x)) {
            if i < |s| - 1 { AtLeastTransitive(Key(w, s[i]), Key(w, last), Key(w, x)); }
          }
        }
        s + [x]
  }

  /** The step of `InsertByFitness` that keeps `last` at the end. */
  lemma InsertedAboveLast(w: World, s: seq<Ref>, x: Ref, mid: seq<Ref>)
    requires |s| > 0 && SortedDescending(w, s)
    requires AtLeast(Key(w, x), Key(w, s[|s| - 1]))
    requires SortedDescending(w, mid) && multiset(mid) == multiset(s[..|s| - 1]) + multiset{x}
    ensures SortedDescending(w, mid + [s[|s| - 1]])
  {
    var last := s[|s| - 1];
    var front := s[..|s| - 1];
    var r := mid + [last];
    forall i | 0 <= i < |mid|
      ensures AtLeast(Key(w, mid[i]), Key(w, last))
    {
      assert mid[i] in multiset(mid);
      if mid[i] != x {
        assert mid[i] in multiset(front);
        var k :| 0 <= k < |front| && front[k] == mid[i];
        assert s[k] == mid[i];
      }
    }
    forall i, j | 0 <= i < j < |r|
      ensures AtLeast(Key(w, r[i]), Key(w, r[j]))
    {
      if j < |mid| {
        assert r[i] == mid[i] && r[j] == mid[j];
      } else {
        assert r[i] == mid[i] && r[j] == last;
      }
    }
  }

  /** `population.sort()`: members by descending fitness. */
  function SortByFitness(w: World, s: seq<Ref>): (r: seq<Ref>)
    ensures SortedDescending(w, r)
    ensures |r| == |s|
    decreases |s|
  {
    if s == [] then []
    else
      var front := s[..|s| - 1];
      InsertByFitness(w, SortByFitness(w, front), s[|s| - 1])
  }

  /** Sorting only reorders: the result holds each reference as often as `s`. */
  lemma {:induction false} SortByFitnessPermutes(w: World, s: seq<Ref>)
    ensures multiset(SortByFitness(w, s)) == multiset(s)
    decreases |s|
  {
    if s != [] {
      var front := s[..|s| - 1];
      assert s == front + [s[|s| - 1]];
      SortByFitnessPermutes(w, front);
    }
  }

  /** The errors of the population operations the engine calls. */
  datatype PopulationError = EmptyPopulation

  /** `get_best_individual()`: the first member, so the best one once sorted. */
  function BestIndividual(w: World, p: seq<Ref>): (r: Result<Individual, PopulationError>)
    requires Inhabits(w, p)
    ensures r.Err? <==> p == []
    ensures r.Ok? && SortedDescending(w, p) ==>
              forall i :: 0 <= i < |p| ==> AtLeast(r.value.fitness, w.objects[p[i]].fitness)
  {
    if p == [] then Err(EmptyPopulation)
    else
      assert SortedDescending(w, p) ==> forall i :: 0 < i < |p| ==> AtLeast(Key(w, p[0]), Key(w, p[i]));
      assert forall i :: 0 <= i < |p| ==> Key(w, p[i]) == w.objects[p[i]].fitness;
      Ok(w.objects[p[0]])
  }
}

=== FILE: pylist.dfy ===
/**
 * Python value and list semantics that the chromosome and engine code rely on:
 * the runtime values an allele slot can hold, Python's `==` between them,
 * and the index rules of `list[i]`, `list.insert(i, x)` and `list[:k]`.
 */
module PyList {
  import opened Wrappers

  /** The runtime values a gene slot of a chromosome can hold.
      `PyFloat` carries a real: rounding is not modelled. */
  datatype PyValue =
    | PyNone
    | PyBool(b: bool)
    | PyInt(n: int)
    | PyFloat(x: real)
    | PyBitGene(bit: bool)

  /** `isinstance(v, int)`: in Python `bool` is a subclass of `int`. */
  predicate IsInstanceInt(v: PyValue) {
    v.PyBool? || v.PyInt?
  }

  /** Values that take part in numeric comparison and `sum`. */
  predicate IsNumeric(v: PyValue) {
    v.PyBool? || v.PyInt? || v.PyFloat?
  }

  /** The numeric value of a number; `True` counts as 1 and `False` as 0. */
  function NumericValue(v: PyValue): real
    requires IsNumeric(v)
  {
    match v
    case PyBool(b) => if b then 1.0 else 0.0
    case PyInt(n) => n as real
    case PyFloat(x) => x
  }

  /** Python's `a == b`: numbers compare by value across bool, int and float;
      other values compare structurally. */
  predicate PyEq(a: PyValue, b: PyValue) {
    if IsNumeric(a) && IsNumeric(b) then NumericValue(a) == NumericValue(b) else a == b
  }

  lemma PyEqSymmetric(a: PyValue, b: PyValue)
    ensures PyEq(a, b) <==> PyEq(b, a)
  {
  }

  /** `x in s`, which tests membership with `==`. */
  predicate PyIn(x: PyValue, s: seq<PyValue>) {
    exists i :: 0 <= i < |s| && PyEq(s[i], x)
  }

  /** No two slots of `s` are `==` to each other. */
  predicate PyDistinct(s: seq<PyValue>) {
    forall i, j :: 0 <= i < |s| && 0 <= j < |s| && i != j ==> !PyEq(s[i], s[j])
  }

  /** The exceptions raised by Python's list primitives. */
  datatype ListError = IndexError

  /** The slot that `s[i]` denotes: a negative index counts from the end;
      anything outside `-len .. len-1` raises `IndexError`. */
  function ResolveIndex(len: nat, i: int): (r: Result<nat, ListError>)
    ensures r.Ok? <==> 0 <= len + i && i < len
    ensures r.Ok? ==> r.value < len
    ensures r.Ok? && i >= 0 ==> r.value == i
    ensures r.Ok? && i < 0 ==> r.value == len + i
  {
    var j := if i < 0 then len + i else i;
    if 0 <= j < len then Ok(j) else Err(IndexError)
  }

  /** How `list.insert(i, x)` and `s[:i]` read the index `i`: a negative
      index counts from the end, and the result is clamped to `0 .. len`. */
  function BoundIndex(len: nat, i: int): (r: nat)
    ensures r <= len
    ensures 0 <= i <= len ==> r == i
    ensures i > len ==> r == len
    ensures i < 0 && 0 <= len + i ==> r == len + i
    ensures len + i < 0 ==> r == 0
  {
    var j := if i < 0 then len + i else i;
    if j < 0 then 0 else if j > len then len else j
  }

  /** `s[:k]`, including Python's reading of a negative `k`. */
  function Take<T>(s: seq<T>, k: int): (r: seq<T>)
    ensures r == s[..BoundIndex(|s|, k)]
  {
    s[..BoundIndex(|s|, k)]
  }

  /** `list.insert(i, x)`. */
  function InsertAt<T>(s: seq<T>, i: int, x: T): (r: seq<T>)
    ensures |r| == |s| + 1
    ensures r[BoundIndex(|s|, i)] == x
    ensures forall k :: 0 <= k < BoundIndex(|s|, i) ==> r[k] == s[k]
    ensures forall k :: BoundIndex(|s|, i) < k < |r| ==> r[k] == s[k - 1]
  {
    var p := BoundIndex(|s|, i);
    s[..p] + [x] + s[p..]
  }
}

=== FILE: shuffle.dfy ===
/**
 * `random.shuffle` as CPython implements it (Fisher-Yates from the last
 * position down to position 1), with the random index of each step taken
 * from a draw function instead of the generator.
 */
module Shuffling {
  import opened PyList

  /** Exchange the elements at positions `i` and `j`. */
  function Swap<T>(s: seq<T>, i: nat, j: nat): (r: seq<T>)
    requires i < |s| && j < |s|
    ensures |r| == |s| && r[i] == s[j] && r[j] == s[i]
    ensures forall k :: 0 <= k < |s| && k != i && k != j ==> r[k] == s[k]
    ensures multiset(r) == multiset(s)
  {
    if i == j then s else s[i := s[j]][j := s[i]]
  }

  /** The steps for positions `n-1` down to `1`; `draw(i) % (i + 1)` is the
      `randbelow(i + 1)` of step `i`. */
  function ShuffleDown<T>(s: seq<T>, n: nat, draw: nat -> nat): (r: seq<T>)
    requires n <= |s|
    ensures |r| == |s|
    ensures multiset(r) == multiset(s)
    decreases n
  {
    if n <= 1 then s
    else
      var i := n - 1;
      ShuffleDown(Swap(s, i, draw(i) % (i + 1)), n - 1, draw)
  }

  function Shuffle<T>(s: seq<T>, draw: nat -> nat): (r: seq<T>)
    ensures |r| == |s|
    ensures multiset(r) == multiset(s)
  {
    ShuffleDown(s, |s|, draw)
  }

  lemma SwapPreservesDistinct(s: seq<PyValue>, i: nat, j: nat)
    requires i < |s| && j < |s| && PyDistinct(s)
    ensures PyDistinct(Swap(s, i, j))
  {
    var r := Swap(s, i, j);
    forall a, b | 0 <= a < |r| && 0 <= b < |r| && a != b
      ensures !PyEq(r[a], r[b])
    {
      var a' := if a == i then j else if a == j then i else a;
      var b' := if b == i then j else if b == j then i else b;
      assert r[a] == s[a'] && r[b] == s[b'];
    }
  }

  lemma {:induction false} ShuffleDownPreservesDistinct(s: seq<PyValue>, n: nat, draw: nat -> nat)
    requires n <= |s| && PyDistinct(s)
    ensures PyDistinct(ShuffleDown(s, n, draw))
    decreases n
  {
    if n > 1 {
      var i := n - 1;
      SwapPreservesDistinct(s, i, draw(i) % (i + 1));
      ShuffleDownPreservesDistinct(Swap(s, i, draw(i) % (i + 1)), n - 1, draw);
    }
  }

  /** Shuffling never makes two slots `==`. */
  lemma ShufflePreservesDistinct(s: seq<PyValue>, draw: nat -> nat)
    requires PyDistinct(s)
    ensures PyDistinct(Shuffle(s, draw))
  {
    ShuffleDownPreservesDistinct(s, |s|, draw);
  }
}

=== FILE: wrappers.dfy ===
/** Failure-carrying result types shared by every module of the model. */
module Wrappers {

  /** An optional value: `None` stands for Python's `None`. */
  datatype Option<+T> = None | Some(value: T)

  /** Either a value or the exception that the modelled Python code raises instead. */
  datatype Result<+T, +E> = Ok(value: T) | Err(error: E) {
    predicate IsFailure() { Err? }

    function PropagateFailure<U>(): Result<U, E>
      requires Err?
    {
      Err(error)
    }

    function Extract(): T
      requires Ok?
    {
      value
    }
  }
}
